=== FILE: README.md ===
# ncore-api boot and payload resolution, modelled in Dafny

ncore-api tells a bare-metal machine what to boot and which install payload to
use. The machine is keyed by its MAC address. This project models the part
that decides both answers.

- **Request keys.** A path segment is lower-cased and its `:` are removed. A
  12-character result is a full MAC address. Each handler accepts different
  lengths:
  - The payload GET also takes a 7-character hostname (`g` + the last six MAC
    characters). It becomes the SQL LIKE pattern `%` + those six characters.
    The payload GET refuses every other length.
  - The image template GET accepts only 12 characters. It refuses a hostname
    with "Invalid mac_address".
  - The image config GET checks no length. It passes any non-empty key to the
    device lookup, which panics on a key shorter than 12 characters once a row
    matches and its URLs are signed.

  Request bodies are checked field by field before any write.
- **Resolution cascades.** The payload GET and the image template GET look in
  three tiers: the device's own row, the default of a subnet containing the
  caller's address, and the process-wide default. On a device-tier miss for a
  full MAC address, the chosen default is recorded for the device. A failed
  insert is only logged. On the payload GET, a hostname key that misses is
  answered 404 and nothing is recorded.
- **Asset locator.** Empty bucket and image names are defaulted. An image has
  three object keys, which are presigned all-or-nothing. Each `http` URL is the
  `https` URL with the first `https` replaced. A device's hostname is `g` +
  characters 6 to 11 of its MAC.
- **Store.** The Postgres tables are sequences of rows. Queries take the first
  row that matches, in table order, using a full LIKE matcher. Inserts refuse
  a duplicate key (SQLSTATE 23505). Updates report a key that matches no row.

## Layout

| file | module | contents |
|---|---|---|
| `wrappers.dfy` | `Wrappers` | `Option`, `Result` |
| `errors.dfy` | `Errors` | the error values that reach the handlers: context errors, `pgx.ErrNoRows`, Postgres errors, validation errors, plain messages, runtime panics |
| `text.dfy` | `Text` | `strings.ToLower` (ASCII), removing a character, `strings.Replace(s, old, new, 1)`, `strings.Split(s, c)[0]`, `%v` of a string slice, and SQL `LIKE` |
| `records.dfy` | `Records` | the value types of `pkg/ipxe` and `pkg/payloads` |
| `postgres.dfy` | `Postgres` | the class `DB` owning the six tables, and its queries, inserts and updates |
| `ipxe.dfy` | `Ipxe` | the ipxe service over `DB` and an abstract object store |
| `payloads.dfy` | `Payloads` | the payloads service's guards |
| `api.dfy` | `Api` | key normalisation, request validation and the HTTP handlers as methods |

Inputs that the model does not compute are parameters:

- Every store call takes `fault: Option<Error>`, the error the driver returned.
  `None` means the driver returned none.
- Uniqueness violations are not inputs. `DB` raises them itself from the table
  contents.
- CIDR containment (`subnet >> address`) is the function `DB.inSubnet`.
- The S3 presigner is the function `Ipxe.Service.presign`.
- The S3 object fetch is the function `Ipxe.Service.getObject`.
- The JSONB aggregation of payload parameters is the function
  `DB.payloadParameters`.

A handler returns a `Response` rather than writing bytes. `Silent` means the
request was cancelled and nothing was written. `Aborted` means the handler
panicked.

## Model

| member | source | states |
|---|---|---|
| Text.ToLower | pkg/api/http.go:96 | the result has the input's length and each character is lowered; ASCII letters only |
| Text.RemoveAll | pkg/api/http.go:96 | no `:` is left, nothing is added, and a string without `:` is unchanged |
| Text.RemoveAllConcat | pkg/api/http.go:96 | removing from a concatenation is removing from each part, in order |
| Text.RemoveAllOne | pkg/api/http.go:96 | one character is dropped iff it is the removed one; with RemoveAllConcat this fixes the result character by character |
| Text.ToLowerConcat | pkg/api/http.go:96 | lowering a concatenation lowers each part |
| Text.ReplaceFirst | pkg/ipxe/ipxe.go:46-50 | at most one occurrence is replaced: the length is unchanged or changes by exactly the length difference of replacement and pattern |
| Text.Like | pkg/postgres/postgres.go:108 | LIKE as a matcher: the pattern `%` matches every string and `_` exactly the one-character strings |
| Text.ReplaceFirstLeftmost | pkg/ipxe/ipxe.go:46-50 | when the leftmost occurrence of the pattern is at `i`, exactly that occurrence is replaced |
| Text.ReplaceFirstAbsent | pkg/ipxe/ipxe.go:46-50 | a string without the pattern is left unchanged |
| Text.BeforeFirst | pkg/api/http.go:128 | the result is a prefix without the separator, and it is the whole input or stops at the first separator |
| Text.LikeLiteral | pkg/postgres/postgres.go:108 | a LIKE pattern without `%`, `_` or `\` matches exactly the equal string |
| Text.LikeSuffix | pkg/postgres/postgres.go:108 | `%` followed by a wildcard-free text matches exactly the strings that end with that text |
| Postgres.FirstSome | pkg/postgres/postgres.go:115-128 | the first row a result set yields: none iff no row yields, otherwise the value of the first row that yields |
| Postgres.FirstSomeAppend | pkg/postgres/postgres.go:115-128 | a row added at the end is reached only when no earlier row yields |
| Postgres.LeastYieldingRow | pkg/postgres/postgres.go:115-128 | below any row that yields there is a first one that yields |
| Postgres.PayloadById | pkg/postgres/postgres.go:107 | the join with the payloads catalog: an entry with that id, or none iff the catalog lacks the id |
| Postgres.ImageByKey | pkg/postgres/postgres.go:408-412 | the join with the images catalog on (image_tag, image_type): none iff no row has that key |
| Postgres.LookupNodePayload | pkg/postgres/postgres.go:101-108 | a found payload comes from a row whose mac_address is LIKE the key and is the catalog entry for its id; no row LIKE the key gives nothing |
| Postgres.LookupNodePayloadFirst | pkg/postgres/postgres.go:101-108 | for any key, wildcards included, the node payload query yields nothing iff no row LIKE the key joins a catalog entry, and otherwise the join of the first such row in table order |
| Postgres.LookupNodeImage | pkg/postgres/postgres.go:400-414 | nothing iff no row LIKE the key joins an images entry; otherwise the images entry of the (tag, type) of the first such row in table order, which is some row LIKE the key |
| Postgres.LookupSubnetPayload | pkg/postgres/postgres.go:136-143 | nothing iff no row whose subnet contains the address joins a catalog entry; otherwise the catalog entry of the first such row in table order |
| Postgres.LookupSubnetImage | pkg/postgres/postgres.go:442-457 | nothing iff no row whose subnet contains the address joins an images entry; otherwise the images entry of the (tag, type) of the first such row in table order |
| Postgres.LikeLiteralRows | pkg/postgres/postgres.go:108 | a wildcard-free key selects exactly the rows whose mac_address equals it |
| Postgres.ExactKeyLookup | pkg/postgres/postgres.go:99-129 | with unique mac addresses, a full key finds its own row joined with the catalog, and nothing else |
| Postgres.ExactKeyMiss | pkg/postgres/postgres.go:124-126 | a full key no row carries finds nothing |
| Postgres.SuffixKeyLookup | pkg/postgres/postgres.go:99-129 | the hostname pattern finds the first joinable row whose mac_address ends with the six characters |
| Postgres.SuffixRowsBefore | pkg/postgres/postgres.go:99-129 | under the hostname pattern, rows whose mac_address ends with the text but whose payload id does not join yield nothing |
| Postgres.RecordedRowFound | pkg/api/http.go:152-159 | after a row is recorded for a device that had none, the next lookup of its full key finds that row's payload |
| Postgres.RecordedOrphanMissed | pkg/api/http.go:152-159 | a row recorded with a payload id missing from the catalog joins with nothing, so the next lookup still misses |
| Postgres.ImageRowsMiss | pkg/postgres/postgres.go:400-414 | under a full mac address that no node_images row carries, no row is LIKE the key |
| Postgres.RecordedImageFound | pkg/api/http.go:470-477 | the node_images row recorded for a new device makes the next lookup of that device find the image of the recorded (tag, type) |
| Postgres.PgErrorCode | pkg/postgres/postgres.go:623-629 | the SQLSTATE of a Postgres error, and nothing iff the error is not a Postgres error |
| Postgres.CreateIpxeImagePgError | pkg/postgres/postgres.go:590-613 | UniqueViolation gives "UniqueViolation - (image_tag, image_type) exists"; CheckViolation on one of the five image columns gives "invalid <column>"; every other error gives nothing |
| Postgres.ImageInsertFailure | pkg/postgres/postgres.go:538-545 | an image insert error stays a context error iff it was one; every other error becomes a message, and a duplicate (tag, type) becomes "UniqueViolation - (image_tag, image_type) exists" |
| Postgres.PayloadUpdateFailure | pkg/postgres/postgres.go:240-249 | an update error stays a context error iff it was one; every other error becomes a message, which is the "already exists" one iff the SQLSTATE is 23505 |
| Postgres.InsertFailure | pkg/postgres/postgres.go:180-189 | context errors pass unchanged, 23505 becomes the "already exists" message, and any other error is returned unchanged |
| Postgres.ReassignPayload | pkg/postgres/postgres.go:227-234 | every row whose mac_address is LIKE the key gets the new payload_id; no row is added, removed or moved, and other rows are untouched |
| Postgres.ReassignImage | pkg/postgres/postgres.go:339-365 | every row LIKE the key gets the new (image_tag, image_type); the rest are untouched |
| Postgres.ReassignExact | pkg/postgres/postgres.go:227-234 | with a full key, only the row carrying exactly that mac_address changes |
| Postgres.PayloadIds | pkg/postgres/postgres.go:196-202 | one payload id per catalog row, in row order |
| Postgres.DB.GetNodePayload | pkg/postgres/postgres.go:99-129 | context errors are returned as they are; ErrNoRows and no match give no payload; other errors become "cannot get node_payload from database"; otherwise the first joined row LIKE the key |
| Postgres.DB.GetSubnetDefaultPayload | pkg/postgres/postgres.go:134-163 | the same classification, and otherwise the catalog entry of the first subnet containing the address |
| Postgres.DB.GetAvailablePayloads | pkg/postgres/postgres.go:195-221 | on an error, no ids; otherwise the catalog's ids in row order, so an id is listed iff the catalog has it |
| Postgres.DB.GetAvailableImages | pkg/postgres/postgres.go:306-337 | on an error, an empty list; otherwise one (tag, type) per images row, in row order |
| Postgres.DB.GetIpxeDbConfig | pkg/postgres/postgres.go:369-435 | each error of either query classified as the source does; no node_images row LIKE the key is "no image_tag and image_type found in database"; no joinable image is "no image found in database"; otherwise the first joined image |
| Postgres.DB.GetSubnetDefaultIpxeDbConfig | pkg/postgres/postgres.go:439-476 | the same classification, and no containing subnet is the error "no image found in database" rather than nothing |
| Postgres.DB.GetPayloadParameters | pkg/postgres/postgres.go:262-303 | the parameters of a payload id, from the abstract aggregation `payloadParameters` |
| Postgres.DB.AddNodePayload | pkg/postgres/postgres.go:165-192 | the row is appended iff there is no driver error and its mac_address is new; a duplicate reports "node_payloads entry already exists …" and leaves the table unchanged; the constraint is kept |
| Postgres.DB.UpdateNodePayload | pkg/postgres/postgres.go:224-259 | context errors pass; 23505 is "already exists"; other errors are "cannot update payload for config"; a driver error is reported as PayloadUpdateFailure gives it; a key matching no row is "mac_address not in database"; otherwise every matching row is reassigned and the input is echoed |
| Postgres.DB.UpdateNodeImage | pkg/postgres/postgres.go:339-365 | the same for node_images, and success returns the input config unchanged |
| Postgres.DB.CreateNodeIpxeConfig | pkg/postgres/postgres.go:479-509 | the row is appended iff there is no driver error and the mac_address is new; a duplicate reports "node_images entry already exists …" and changes nothing |
| Postgres.DB.CreateIpxeImage | pkg/postgres/postgres.go:512-554 | the images row is appended iff there is no driver error and (tag, type) is new; success returns the row with empty URLs; failures are classified by createIpxeImagePgError, else "cannot create image", and the error is ImageInsertFailure of the driver error (the fault, or the duplicate key) |
| Ipxe.ImageObjectKeys | pkg/ipxe/ipxe.go:216-218 | three keys: `<image>/initrd.img`, `<image>/vmlinuz`, `<image>/rootfs.cpio.gz` |
| Ipxe.ImageObjectKeysDistinct | pkg/ipxe/ipxe.go:216-218 | the three keys are distinct and all lie under `<image>/` |
| Ipxe.Dto | pkg/ipxe/ipxe.go:40-55 | each http URL is its https URL with the first "https" replaced by "http"; every other field is copied |
| Ipxe.DtoIdempotent | pkg/ipxe/ipxe.go:40-55 | applying dto twice is applying it once |
| Ipxe.DtoHttpsScheme | pkg/ipxe/ipxe.go:46-50 | an https URL becomes the same URL with scheme http |
| Ipxe.DtoWithoutHttps | pkg/ipxe/ipxe.go:46-50 | a text without "https", such as an error message, is copied unchanged |
| Ipxe.SetHostname | pkg/ipxe/ipxe.go:72-75 | for a mac of at least 12 characters the hostname is "g" + mac[6..12]; no other field changes |
| Ipxe.Service.Requests | pkg/ipxe/ipxe.go:210-218 | three requests with the defaulted bucket, the three keys of the defaulted image in order, and one lifetime |
| Ipxe.Service.Sign | pkg/ipxe/ipxe.go:220-234 | one presign call: a URL or an error is passed through exactly as the presigner returns it, except that a `Panicked` value becomes a plain error with the same text |
| Ipxe.Service.PresignedUrls | pkg/ipxe/ipxe.go:220-238 | all three URLs iff every request succeeds; otherwise the error of the first request that fails |
| Ipxe.Service.GetIpxeImagePresignedUrls | pkg/ipxe/ipxe.go:200-239 | the presign calls made are a prefix of the three requests that stops at the first failure; a failure gives three empty URLs and that error |
| Ipxe.Service.GetNodeIpxeConfig | pkg/ipxe/ipxe.go:87-119 | an empty mac is a ValidationError; a store error is no configuration and no error; a presign error is returned; success carries the row's fields, the URLs with http variants, and the hostname from the mac; a key shorter than 12 characters panics |
| Ipxe.Service.GetSubnetDefaultIpxeConfig | pkg/ipxe/ipxe.go:123-154 | an empty address gives nothing; a configuration exists iff the store and every presign succeed; it carries the row and URLs, with an empty hostname |
| Ipxe.Service.DefaultCmdline | pkg/ipxe/ipxe.go:254-259 | the default image's cmdline object as fetched, or "" when the fetch fails |
| Ipxe.Service.GetIpxeApiDefault | pkg/ipxe/ipxe.go:241-267 | never fails: the configured name, bucket, tag and type; the fetched cmdline or ""; the URLs or, on a presign error, that error's text in all three; it is its own dto |
| Ipxe.Service.CreateIpxeImage | pkg/ipxe/ipxe.go:171-187 | a refused insert is no configuration and exactly the store's error: ImageInsertFailure of the fault, or of the duplicate key; otherwise the row stays inserted and the configuration carries the URLs, or empty URLs beside the presign error |
| Payloads.Service.GetNodePayload | pkg/payloads/payloads.go:46-51 | an empty mac is refused with "missing payload macAddress" before the store; any other mac goes to the store unchanged and its result is returned unchanged |
| Payloads.Service.GetDefaultPayload | pkg/payloads/service.go:15-18 | the global default payload carries the configured id and directory |
| Payloads.Service.GetPayloadParameters | pkg/payloads/payloads.go:54-58 | an empty id is refused with "missing payloadId" before the store; any other id goes to the store unchanged |
| Api.Routable | pkg/api/http.go:87-91 | a segment is served iff it is non-empty and no character is `/` |
| Api.Canonical | pkg/api/http.go:96 | the key has no `:` and no upper-case letter, is no longer than the segment, and is the lowered segment when the segment has no `:` |
| Api.CanonicalColon | pkg/api/http.go:96 | each `:` drops out and the text around it is only lowered: the key of `a:b` is lower(a) followed by the key of b |
| Api.CanonicalFixed | pkg/api/http.go:96 | a lower-case string without `:` is its own key |
| Api.CanonicalIdempotent | pkg/api/http.go:96 | normalising twice is normalising once |
| Api.PayloadKey | pkg/api/http.go:96-107 | a key exists iff the normalised length is 12 or 7; 12 is kept, and 7 becomes `%` + its last six characters |
| Api.TemplateKey | pkg/api/http.go:429-439 | a key exists iff the normalised length is exactly 12 |
| Api.RequestIp | pkg/api/http.go:128 | the address up to its first `:` |
| Api.HostnameFindsDevice | pkg/api/http.go:99-101 | a device's hostname becomes a key that its own mac_address matches |
| Api.Contains | pkg/api/http.go:29-37 | true iff the string is an element of the list |
| Api.MissingFields | pkg/api/http.go:182-187 | one "<name> is missing." per empty value, in field order; its properties are stated by MissingFieldsMeaning and MissingFieldsConcat |
| Api.MissingFieldsMeaning | pkg/api/http.go:182-187 | there are messages iff some field is empty; each message names an empty field |
| Api.MissingFieldsConcat | pkg/api/http.go:347-361 | the messages of earlier fields precede those of later fields |
| Api.NodePayloadFieldsSplit | pkg/api/http.go:182-187 | the payload messages are the PayloadId message, then the MacAddress message |
| Api.ImageFieldsSplit | pkg/api/http.go:347-361 | the image messages follow the order ImageName, ImageCmdline, ImageBucket, ImageTag, ImageType |
| Api.NodePayloadPutErrors | pkg/api/http.go:182-187 | one "<Field> is missing." per empty field, PayloadId first |
| Api.ImagePutErrors | pkg/api/http.go:347-361 | one "<Field> is missing." per empty field, in field order |
| Api.ImageDeleteRefusal | pkg/api/http.go:386-405 | an undecodable body is a 500 naming the decode error; `null` panics; a decoded body is refused iff its tag or type is empty, with a 422 listing the missing fields |
| Api.Server.HandleNodePayloadGet | pkg/api/http.go:85-173 | not-found and "Invalid mac_address" without a lookup; a device hit served unchanged; a hostname miss is a 404 without writes; a full-key miss serves the subnet payload or the global default and records it iff the mac is new and the insert succeeds; a subnet error panics |
| Api.Server.RepeatedPayloadGet | pkg/api/http.go:85-173 | with no driver errors, a second GET of a full mac serves what the first served and records nothing more |
| Api.Server.HandleNodePayloadPut | pkg/api/http.go:174-243 | missing fields, a bad mac or an id outside the catalog are refused without an update; otherwise every row LIKE the key is reassigned iff the update succeeds; a failed update answers with the text of PayloadUpdateFailure of the fault, or "mac_address not in database: {id mac}" when no row matches |
| Api.Server.HandleGetNodeIpxe | pkg/api/http.go:276-311 | the device configuration, or the API default on an error or a miss; cancellation writes nothing; no store writes; the handler panics only for a key shorter than 12 characters |
| Api.Server.HandleGetNodeIpxeTemplate | pkg/api/http.go:422-481 | only 12-character keys; a device hit is served; otherwise the subnet configuration or the API default is served and its image is recorded iff the mac is new and the insert succeeds |
| Api.Server.RepeatedTemplateGet | pkg/ipxe/ipxe.go:117 | two fault-free template GETs of a new device whose subnet has an image: the first serves the subnet configuration with no hostname and records its (tag, type); the second serves the same image with hostname "g" + mac[6..12]; the two responses differ |
| Api.Server.HandleGetNodeIpxeTemplateHosted | pkg/api/http.go:422-481 | the template GET as HandleGetNodeIpxeTemplate, except that the subnet and default tiers also carry the derived hostname "g" + mac[6..12] |
| Api.Server.RepeatedTemplateGetHosted | pkg/ipxe/ipxe.go:123-154 | with the hostname set on every tier, two fault-free template GETs of a new device whose subnet has an image serve identical configurations, hostname included |
| Api.Server.HandleIpxeImagesPut | pkg/api/http.go:339-385 | any missing field refuses the body without an insert; otherwise the image is inserted iff its (tag, type) is new, and the response is the signed configuration, the presign error's text, or on a refused insert exactly the text of ImageInsertFailure of the fault or the duplicate key; a served configuration has no hostname |
| Api.Server.HandlePresignedUrls | pkg/api/http.go:485-518 | the default bucket and a 900-second lifetime; cancellation writes nothing; other errors are 500; an empty URL is a 404 naming it; otherwise the three URLs as text |

## Findings

| source | as written | input that shows it | evidently intended | confidence | as-written member | corrected member |
|---|---|---|---|---|---|---|
| pkg/ipxe/ipxe.go:123-154 | only the device tier sets the hostname (ipxe.go:117); the subnet tier and the API default (ipxe.go:241-267) leave it empty, so the first template GET of a new device has hostname "" and every later one "g" + mac[6..12] | a mac address with no node_images row, requested from an address inside a subnet that has a default image, twice | every tier sets the derived hostname, so repeated requests for one device are served the same configuration | not executed | Api.Server.RepeatedTemplateGet | Api.Server.RepeatedTemplateGetHosted |

## Left out

- Unicode: `strings.ToLower` is modelled on ASCII letters only. Lengths are counted in characters, whereas Go counts bytes.
- Text.Like: a pattern ending in a lone `\` is treated as a literal backslash. Postgres raises an error for it instead.
- SQL row order is unspecified. The model fixes it: table order, with the device or subnet row outer and the catalog inner.
- Method and content-type dispatch (405 and 415), JSON encoding and decoding, HTTP status codes and logging are not modelled. A decoded body is an input.
- Template parsing and rendering (`GetIpxeConfigTemplate`, `Execute`) are not modelled. The template handler returns the configuration it would render.
- `DeleteIpxeImage` and `deleteIpxeImagePgError` are not modelled, because the delete's RETURNING scan is outside the model. Only the body checks of image DELETE are modelled.
- The type `payloads.NodePayloadDb` is not declared in any file of this model's source; only composite literals of it appear (pkg/api/http.go:152-155, pkg/postgres/postgres.go:253-256). The texts built from `%v` of it ("mac_address not in database: …", "cannot update payload for config: …") assume the field order PayloadId, MacAddress that those literals use, in `Postgres.ShowNodePayloadDb`.
- The image DELETE body type `IpxeDbDeleteConfig` is not declared in any file of this model's source. It is modelled by the two fields the handler reads.
- `DB.GetPayloadParameters`: its JSONB aggregation is the abstract function `payloadParameters`. The `handleGetPayloadParameters` handler is not modelled.
- The GET branch of `handleIpxeImages` answers 404 for an empty image name or one containing '/'. Otherwise it returns without writing. It is not modelled.
- Go's nil slices are not distinguished from empty ones, for example the result of `GetAvailableImages` on cancellation.
- The global default payload is assumed to be the id and directory the payloads service is created with (pkg/payloads/service.go:15-18). `GetDefaultPayload`'s body is not part of this model.
- The systems and nodes packages, server start-up, flags and concurrency are not modelled. The first-contact insert race appears only as "an insert of an existing key fails and changes nothing".
- SQL injection through `fmt.Sprintf` query text is not modelled.
- Malformed `inet` input reaches the model only as a driver fault.
- The ipxe service methods `GetAvailableImages`, `UpdateNodeImage` (pkg/ipxe/ipxe.go:78-85) and `CreateNodeIpxeConfig` (pkg/ipxe/ipxe.go:165-169) only pass the call to the store. They are not separate members; the model calls the store directly.
- The payloads service methods `GetSubnetDefaultPayload`, `AddNodePayload`, `UpdateNodePayload` and `GetAvailablePayloads` are assumed to pass the call to the store. Their bodies are not part of this model; they are declared only in the `payloads.DB` interface (pkg/payloads/service.go:32-55). That interface gives `AddNodePayload` and `UpdateNodePayload` the result `([]*NodePayload, error)`. The model uses the Postgres results instead: `error` (pkg/postgres/postgres.go:165) and `(*NodePayloadDb, error)` (pkg/postgres/postgres.go:224).
- Ipxe.Service.Sign: the presigner is an abstract function whose failures may carry any error value. A `Panicked` value it returns is read as a plain message with the same text, because the S3 presigner reports failures as errors and does not panic.
- Ipxe.SetHostname: the source mutates the configuration in place through a pointer. The model returns the updated value, so aliasing is not modelled.
- Ipxe.Service.GetNodeIpxeConfig: the contract states that an empty mac gives a ValidationError, but not the converse, because a presign error can be any error value.
- Postgres.DB.GetAvailableImages: a row scan error leaves the previous row's values in the scan variables. The model reads every row correctly.
- Postgres.DB.GetAvailablePayloads: the source's `for rows.Next()` reads the single ARRAY row of the query. It is modelled as a function of the catalog, without a loop.
- Postgres.DB.UpdateNodePayload: the 23505 branch is reachable only through an injected fault, because an update never changes mac_address.

=== FILE: api.dfy ===
/**
 * The HTTP handlers (pkg/api/http.go) that resolve a device's payload and
 * boot image: key normalisation, request validation, and the cascades
 * device row -> subnet default -> process-wide default, which record the
 * chosen default for a device seen for the first time.
 *
 * A handler is a method from the request's parts (path segment, remote
 * address, decoded body) and the driver faults of the store calls it makes
 * to a Response; the store is the only state it changes.
 */
module Api {
  import opened Wrappers
  import opened Errors
  import opened Text
  import opened Records
  import opened Postgres
  import Ipxe
  import Payloads

  // ---------------------------------------------------------------------
  // Requests and responses
  // ---------------------------------------------------------------------

  /** What a handler writes. */
  datatype Response<T> =
    | Served(value: T)                      // the value as the body: JSON, rendered template or text
    | ErrorList(messages: seq<string>)      // a jsonErrors body; writeErrors sets no status
    | NotFound(message: string)             // 404
    | InternalError(message: string)        // 500
    | UnprocessableEntity(message: string)  // 422
    | Silent                                // the request was cancelled: nothing is written
    | Aborted                               // the handler panicked

  /** A JSON request body as json.Decoder sees it. */
  datatype Body<T> = Decoded(value: T) | Null | Undecodable(reason: string)

  /** The body http.NotFound writes. */
  const NotFoundPage: string := "404 page not found"
  /** http.StatusText(http.StatusInternalServerError). */
  const InternalServerError: string := "Internal Server Error"
  /** http.StatusText(http.StatusUnprocessableEntity). */
  const UnprocessableEntityText: string := "Unprocessable Entity"

  /** The driver faults of the store calls a payload GET can make. */
  datatype PayloadGetFaults = PayloadGetFaults(lookup: Option<Error>, subnet: Option<Error>, insert: Option<Error>)

  /** The driver faults of the store calls an image template GET can make. */
  datatype TemplateFaults = TemplateFaults(
    nodeImages: Option<Error>, images: Option<Error>, subnet: Option<Error>, insert: Option<Error>)

  // ---------------------------------------------------------------------
  // Identity normalisation
  // ---------------------------------------------------------------------

  /** A path segment the handlers serve: non-empty and without `/`. */
  predicate Routable(segment: string): (r: bool)
    ensures r <==> |segment| > 0 && forall i :: 0 <= i < |segment| ==> segment[i] != '/'
  {
    segment != "" && '/' !in segment
  }

  predicate IsUpper(c: char) {
    'A' <= c <= 'Z'
  }

  /** The segment lower-cased with every `:` removed. */
  function Canonical(segment: string): (key: string)
    ensures ':' !in key && |key| <= |segment|
    ensures forall i :: 0 <= i < |key| ==> !IsUpper(key[i])
    ensures ':' !in segment ==> key == ToLower(segment)
  {
    var lower := ToLower(segment);
    assert forall j :: 0 <= j < |lower| ==> !IsUpper(lower[j]);
    var key := RemoveAll(lower, ':');
    assert forall i :: 0 <= i < |key| ==> key[i] in lower;
    key
  }

  /** A string already lower-case and free of `:` is its own canonical form. */
  lemma CanonicalFixed(s: string)
    requires ':' !in s
    requires forall i :: 0 <= i < |s| ==> !IsUpper(s[i])
    ensures Canonical(s) == s
  {
  }

  /** A `:` after a colon-free part drops out; the part itself is only lower-cased. */
  lemma CanonicalColon(a: string, b: string)
    requires ':' !in a
    ensures Canonical(a + ":" + b) == ToLower(a) + Canonical(b)
  {
    ToLowerConcat(a + ":", b);
    ToLowerConcat(a, ":");
    assert ToLower(":") == ":";
    assert ':' !in ToLower(a) by {
      forall i | 0 <= i < |a| ensures ToLower(a)[i] != ':' {
        assert a[i] != ':';
      }
    }
    RemoveAllConcat(ToLower(a) + ":", ToLower(b), ':');
    RemoveAllConcat(ToLower(a), ":", ':');
    RemoveAllOne(':', ':');
  }

  /** Normalising twice is normalising once. */
  lemma CanonicalIdempotent(s: string)
    ensures Canonical(Canonical(s)) == Canonical(s)
  {
  }

  /**
   * The store key of a payload request: a 12-character canonical form as it
   * is, a 7-character one (a hostname) as the LIKE pattern `%` + its last six
   * characters, and nothing for any other length.
   */
  function PayloadKey(segment: string): (r: Option<string>)
    ensures var c := Canonical(segment);
      r.Some? <==> |c| == 12 || |c| == 7
    ensures var c := Canonical(segment);
      |c| == 12 ==> r == Some(c)
    ensures var c := Canonical(segment);
      |c| == 7 ==> r == Some("%" + c[1..])
    ensures r.Some? ==> |r.value| == 12 || |r.value| == 7
  {
    var c := Canonical(segment);
    var key := if |c| == 7 then "%" + c[1..] else c;
    if |key| != 12 && |key| != 7 then None else Some(key)
  }

  /** The store key of an image template request: only the 12-character form. */
  function TemplateKey(segment: string): (r: Option<string>)
    ensures r.Some? <==> |Canonical(segment)| == 12
    ensures r.Some? ==> r.value == Canonical(segment)
  {
    var c := Canonical(segment);
    if |c| != 12 then None else Some(c)
  }

  /** The address the subnet tier is asked about: RemoteAddr up to its first `:`. */
  function RequestIp(remoteAddr: string): (ip: string)
    ensures ip <= remoteAddr && ':' !in ip
    ensures ip == remoteAddr || remoteAddr[|ip|] == ':'
  {
    BeforeFirst(remoteAddr, ':')
  }

  /**
   * A device's hostname ("g" + characters 6 to 11 of its mac) used as a
   * payload key becomes the suffix pattern of those six characters, which
   * the device's own mac matches.
   */
  lemma {:induction false} HostnameFindsDevice(mac: string)
    requires |mac| == 12 && Canonical(mac) == mac && Literal(mac)
    ensures PayloadKey("g" + mac[6..12]) == Some("%" + mac[6..12])
    ensures Like(mac, "%" + mac[6..12])
  {
    var tail := mac[6..12];
    var hostname := "g" + tail;
    assert forall i :: 0 <= i < |hostname| ==> hostname[i] == 'g' || hostname[i] in mac;
    CanonicalFixed(hostname);
    assert hostname[1..] == tail;
    assert Literal(tail) by {
      forall i | 0 <= i < |tail| ensures !IsWildcard(tail[i]) {
        assert tail[i] == mac[6 + i];
      }
    }
    LikeSuffix(mac, tail);
  }

  // ---------------------------------------------------------------------
  // Request validation
  // ---------------------------------------------------------------------

  /** contains: whether `str` is an element of `s`. */
  method Contains(s: seq<string>, str: string) returns (found: bool)
    ensures found <==> str in s
  {
    var i := 0;
    while i < |s|
      invariant 0 <= i <= |s|
      invariant forall j :: 0 <= j < i ==> s[j] != str
    {
      if s[i] == str {
        return true;
      }
      i := i + 1;
    }
    return false;
  }

  /** The message for one field: "<name> is missing." when its value is empty, nothing otherwise. */
  function Missing(name: string, value: string): seq<string> {
    if value == "" then [name + " is missing."] else []
  }

  /** One "<name> is missing." message per empty value, in field order. */
  function MissingFields(names: seq<string>, values: seq<string>): seq<string>
    requires |names| == |values|
  {
    if names == [] then [] else Missing(names[0], values[0]) + MissingFields(names[1..], values[1..])
  }

  /** There is a message exactly when some field is empty, and each message names an empty field. */
  lemma {:induction false} MissingFieldsMeaning(names: seq<string>, values: seq<string>)
    requires |names| == |values|
    ensures |MissingFields(names, values)| <= |names|
    ensures MissingFields(names, values) == [] <==> forall i :: 0 <= i < |values| ==> values[i] != ""
    ensures forall m :: m in MissingFields(names, values) ==>
      exists i :: 0 <= i < |names| && values[i] == "" && m == names[i] + " is missing."
  {
    if names != [] {
      MissingFieldsMeaning(names[1..], values[1..]);
      assert forall i :: 1 <= i < |values| ==> values[i] == values[1..][i - 1] && names[i] == names[1..][i - 1];
    }
  }

  /** The messages of earlier fields come before those of later fields. */
  lemma {:induction false} MissingFieldsConcat(n1: seq<string>, v1: seq<string>, n2: seq<string>, v2: seq<string>)
    requires |n1| == |v1| && |n2| == |v2|
    ensures MissingFields(n1 + n2, v1 + v2) == MissingFields(n1, v1) + MissingFields(n2, v2)
    decreases |n1|
  {
    if n1 != [] {
      assert (n1 + n2)[1..] == n1[1..] + n2;
      assert (v1 + v2)[1..] == v1[1..] + v2;
      MissingFieldsConcat(n1[1..], v1[1..], n2, v2);
    } else {
      assert n1 + n2 == n2 && v1 + v2 == v2;
    }
  }

  const NodePayloadFields: seq<string> := ["PayloadId", "MacAddress"]
  const ImageFields: seq<string> := ["ImageName", "ImageCmdline", "ImageBucket", "ImageTag", "ImageType"]
  const ImageKeyFields: seq<string> := ["ImageTag", "ImageType"]

  function NodePayloadValues(npd: NodePayloadDb): seq<string> {
    [npd.payloadId, npd.macAddress]
  }

  function ImageValues(ic: IpxeDbConfig): seq<string> {
    [ic.imageName, ic.imageCmdline, ic.imageBucket, ic.imageTag, ic.imageType]
  }

  function ImageKeyValues(tt: IpxeImageTagType): seq<string> {
    [tt.imageTag, tt.imageType]
  }

  /** The payload field messages, field by field. */
  lemma NodePayloadFieldsSplit(npd: NodePayloadDb)
    ensures MissingFields(NodePayloadFields, NodePayloadValues(npd)) ==
      Missing("PayloadId", npd.payloadId) + Missing("MacAddress", npd.macAddress)
  {
    var n, v := NodePayloadFields, NodePayloadValues(npd);
    assert MissingFields(n[1..], v[1..]) == Missing(n[1], v[1]) by {
      assert n[1..][1..] == [] && v[1..][1..] == [];
    }
  }

  /** The image field messages, field by field. */
  lemma ImageFieldsSplit(ic: IpxeDbConfig)
    ensures MissingFields(ImageFields, ImageValues(ic)) ==
      Missing("ImageName", ic.imageName) + Missing("ImageCmdline", ic.imageCmdline) +
      Missing("ImageBucket", ic.imageBucket) + Missing("ImageTag", ic.imageTag) + Missing("ImageType", ic.imageType)
  {
    var n0, v0 := ImageFields, ImageValues(ic);
    var n1, v1 := n0[1..], v0[1..];
    var n2, v2 := n1[1..], v1[1..];
    var n3, v3 := n2[1..], v2[1..];
    var n4, v4 := n3[1..], v3[1..];
    assert n4 == ["ImageType"] && v4 == [ic.imageType];
    assert MissingFields(n4, v4) == Missing("ImageType", ic.imageType) by {
      assert n4[1..] == [] && v4[1..] == [];
    }
    var a, b, c, d, e := Missing("ImageName", ic.imageName), Missing("ImageCmdline", ic.imageCmdline),
      Missing("ImageBucket", ic.imageBucket), Missing("ImageTag", ic.imageTag), Missing("ImageType", ic.imageType);
    assert MissingFields(n3, v3) == d + e by {
      assert n3[0] == "ImageTag" && v3[0] == ic.imageTag && n3[1..] == n4 && v3[1..] == v4;
    }
    assert MissingFields(n2, v2) == c + (d + e) by {
      assert n2[0] == "ImageBucket" && v2[0] == ic.imageBucket && n2[1..] == n3 && v2[1..] == v3;
    }
    assert MissingFields(n1, v1) == b + (c + (d + e)) by {
      assert n1[0] == "ImageCmdline" && v1[0] == ic.imageCmdline && n1[1..] == n2 && v1[1..] == v2;
    }
    assert MissingFields(n0, v0) == a + (b + (c + (d + e))) by {
      assert n0[0] == "ImageName" && v0[0] == ic.imageName;
    }
    SeqAssoc5(a, b, c, d, e);
  }

  /** Regrouping five concatenated sequences. */
  lemma SeqAssoc5<T>(a: seq<T>, b: seq<T>, c: seq<T>, d: seq<T>, e: seq<T>)
    ensures a + (b + (c + (d + e))) == a + b + c + d + e
  {
  }


  /** The PUT payload body checks (http.go:182-187): a message per empty field, PayloadId first. */
  method NodePayloadPutErrors(npd: NodePayloadDb) returns (errors: seq<string>)
    ensures errors == MissingFields(NodePayloadFields, NodePayloadValues(npd))
  {
    errors := [];
    if npd.payloadId == "" {
      errors := errors + ["PayloadId is missing."];
    }
    if npd.macAddress == "" {
      errors := errors + ["MacAddress is missing."];
    }
    NodePayloadFieldsSplit(npd);
    assert "PayloadId" + " is missing." == "PayloadId is missing.";
    assert "MacAddress" + " is missing." == "MacAddress is missing.";
  }

  /** The five image field messages, spelled out. */
  lemma ImageMessages()
    ensures "ImageName" + " is missing." == "ImageName is missing."
    ensures "ImageCmdline" + " is missing." == "ImageCmdline is missing."
    ensures "ImageBucket" + " is missing." == "ImageBucket is missing."
    ensures "ImageTag" + " is missing." == "ImageTag is missing."
    ensures "ImageType" + " is missing." == "ImageType is missing."
  {
  }

  /** The PUT image body checks (http.go:347-361): a message per empty field, in field order. */
  method ImagePutErrors(ic: IpxeDbConfig) returns (errors: seq<string>)
    ensures errors == MissingFields(ImageFields, ImageValues(ic))
  {
    ImageMessages();
    // `sofar` is the message list of the fields checked so far.
    errors := [];
    if ic.imageName == "" {
      errors := errors + ["ImageName is missing."];
    }
    ghost var sofar := Missing("ImageName", ic.imageName);
    assert errors == sofar;
    if ic.imageCmdline == "" {
      errors := errors + ["ImageCmdline is missing."];
    }
    sofar := sofar + Missing("ImageCmdline", ic.imageCmdline);
    assert errors == sofar;
    if ic.imageBucket == "" {
      errors := errors + ["ImageBucket is missing."];
    }
    sofar := sofar + Missing("ImageBucket", ic.imageBucket);
    assert errors == sofar;
    if ic.imageTag == "" {
      errors := errors + ["ImageTag is missing."];
    }
    sofar := sofar + Missing("ImageTag", ic.imageTag);
    assert errors == sofar;
    if ic.imageType == "" {
      errors := errors + ["ImageType is missing."];
    }
    sofar := sofar + Missing("ImageType", ic.imageType);
    assert errors == sofar;
    ImageFieldsSplit(ic);
  }

  /** The body of an image DELETE refused before any store call, if it is refused (http.go:386-405). */
  function ImageDeleteRefusal(body: Body<IpxeImageTagType>): (r: Option<Response<IpxeDbConfig>>)
    ensures body.Undecodable? ==> r == Some(InternalError(InternalServerError + " - failed to decode " + body.reason))
    ensures body.Null? ==> r == Some(Aborted)
    ensures body.Decoded? ==> (r.None? <==> body.value.imageTag != "" && body.value.imageType != "")
    ensures body.Decoded? && r.Some? ==>
      r == Some(UnprocessableEntity(UnprocessableEntityText + " - " + FormatList(MissingFields(ImageKeyFields, ImageKeyValues(body.value)))))
  {
    match body
    case Undecodable(reason) => Some(InternalError(InternalServerError + " - failed to decode " + reason))
    case Null => Some(Aborted)
    case Decoded(tt) =>
      var errors := MissingFields(ImageKeyFields, ImageKeyValues(tt));
      MissingFieldsMeaning(ImageKeyFields, ImageKeyValues(tt));
      if errors != [] then Some(UnprocessableEntity(UnprocessableEntityText + " - " + FormatList(errors)))
      else None
  }

  /** The text body of a presigned URL response. */
  function UrlsText(urls: Ipxe.ImageUrls): string {
    "imageInitrdUrlHttps: " + urls.initrd + "\n" +
    "imageKernelUrlHttps: " + urls.kernel + "\n" +
    "imageRootFsUrlHttps: " + urls.rootFs
  }

  // ---------------------------------------------------------------------
  // The server
  // ---------------------------------------------------------------------

  /** The HTTP server: the two services it routes to. */
  datatype Server = Server(ipxe: Ipxe.Service, payloads: Payloads.Service)
  {
    /**
     * GET /api/v2/payload/<mac> (http.go:85-173): the device's payload, else
     * the subnet's, else the global default, which is then recorded for the
     * device.
     */
    method HandleNodePayloadGet(segment: string, remoteAddr: string, faults: PayloadGetFaults)
      returns (resp: Response<NodePayload>)
      requires payloads.db.Valid()
      modifies payloads.db
      ensures payloads.db.Valid()
      ensures payloads.db.payloads == old(payloads.db.payloads)
      ensures payloads.db.subnetDefaultPayloads == old(payloads.db.subnetDefaultPayloads)
      ensures payloads.db.ImageTables() == old(payloads.db.ImageTables())
      ensures !Routable(segment) ==> resp == NotFound(NotFoundPage)
      ensures Routable(segment) && PayloadKey(segment).None? ==> resp == ErrorList(["Invalid mac_address"])
      ensures !Routable(segment) || PayloadKey(segment).None? ==> payloads.db.nodePayloads == old(payloads.db.nodePayloads)
      ensures Routable(segment) && PayloadKey(segment).Some? ==>
        var key := PayloadKey(segment).value;
        match old(payloads.GetNodePayload(key, faults.lookup))
        case Err(e) =>
          && resp == (if IsContextError(e) then Silent else InternalError(InternalServerError))
          && payloads.db.nodePayloads == old(payloads.db.nodePayloads)
        case Ok(Some(device)) =>
          resp == Served(device) && payloads.db.nodePayloads == old(payloads.db.nodePayloads)
        case Ok(None) =>
          if |key| == 7 then
            && resp == NotFound("payload not found for hostname: " + key)
            && payloads.db.nodePayloads == old(payloads.db.nodePayloads)
          else match old(payloads.db.GetSubnetDefaultPayload(RequestIp(remoteAddr), faults.subnet))
            case Err(_) =>
              resp == Aborted && payloads.db.nodePayloads == old(payloads.db.nodePayloads)
            case Ok(subnet) =>
              var chosen := if subnet.Some? then subnet.value else payloads.GetDefaultPayload();
              && resp == Served(NodePayload(chosen.payloadId, chosen.payloadDirectory, key))
              && payloads.db.nodePayloads ==
                   if faults.insert.None? && !old(MacTaken(payloads.db.nodePayloads, key))
                   then old(payloads.db.nodePayloads) + [NodePayloadDb(chosen.payloadId, key)]
                   else old(payloads.db.nodePayloads)
    {
      if !Routable(segment) {
        return NotFound(NotFoundPage);
      }
      var macAddress := Canonical(segment);
      if |macAddress| == 7 {
        macAddress := "%" + macAddress[1..];
      }
      if |macAddress| != 12 && |macAddress| != 7 {
        return ErrorList(["Invalid mac_address"]);
      }
      assert PayloadKey(segment) == Some(macAddress);

      var device := payloads.GetNodePayload(macAddress, faults.lookup);
      if device.Err? {
        if IsContextError(device.error) {
          return Silent;
        }
        return InternalError(InternalServerError);
      }
      if device.value.Some? {
        return Served(device.value.value);
      }
      if |macAddress| == 7 {
        return NotFound("payload not found for hostname: " + macAddress);
      }

      var subnet := payloads.db.GetSubnetDefaultPayload(RequestIp(remoteAddr), faults.subnet);
      if subnet.Err? {
        // The 500 is written, then the nil default payload is dereferenced.
        return Aborted;
      }
      var chosen := if subnet.value.Some? then subnet.value.value else payloads.GetDefaultPayload();
      var _ := payloads.db.AddNodePayload(NodePayloadDb(chosen.payloadId, macAddress), faults.insert);
      resp := Served(NodePayload(chosen.payloadId, chosen.payloadDirectory, macAddress));
    }

    /**
     * The configured default payload is the catalog's entry of that id, when
     * the catalog has one.
     */
    predicate DefaultAgrees()
      reads payloads.db
    {
      var d := payloads.GetDefaultPayload();
      PayloadById(payloads.db.payloads, d.payloadId).Some? ==> PayloadById(payloads.db.payloads, d.payloadId) == Some(d)
    }

    /**
     * Two fault-free payload GETs of the same full mac address: the first
     * always serves a payload, and the second serves the same one and records
     * nothing more, whichever tier the first one chose.
     */
    method RepeatedPayloadGet(segment: string, remoteAddr: string) returns (first: Response<NodePayload>, second: Response<NodePayload>)
      requires payloads.db.Valid()
      requires Routable(segment) && |Canonical(segment)| == 12 && Literal(Canonical(segment))
      modifies payloads.db
      ensures payloads.db.Valid()
      ensures first.Served?
      ensures old(DefaultAgrees()) ==> second == first
      ensures var key := Canonical(segment);
        payloads.db.nodePayloads ==
          if old(MacTaken(payloads.db.nodePayloads, key)) then old(payloads.db.nodePayloads)
          else old(payloads.db.nodePayloads) + [NodePayloadDb(first.value.payloadId, key)]
    {
      var none := PayloadGetFaults(None, None, None);
      var key := Canonical(segment);
      assert PayloadKey(segment) == Some(key);
      ghost var rows, catalog := payloads.db.nodePayloads, payloads.db.payloads;
      ghost var ip := RequestIp(remoteAddr);
      ghost var subnet := LookupSubnetPayload(payloads.db.subnetDefaultPayloads, catalog, payloads.db.inSubnet, ip);
      ghost var chosen := if subnet.Some? then subnet.value else payloads.GetDefaultPayload();
      ghost var found := LookupNodePayload(rows, catalog, key);
      if !MacTaken(rows, key) {
        ExactKeyMiss(rows, catalog, key);
      }
      first := HandleNodePayloadGet(segment, remoteAddr, none);
      assert first == if found.Some? then Served(found.value) else Served(NodePayload(chosen.payloadId, chosen.payloadDirectory, key));
      assert payloads.db.payloads == catalog;
      assert LookupSubnetPayload(payloads.db.subnetDefaultPayloads, catalog, payloads.db.inSubnet, ip) == subnet;
      if found.None? && !MacTaken(rows, key) {
        ghost var rows1 := payloads.db.nodePayloads;
        assert rows1 == rows + [NodePayloadDb(chosen.payloadId, key)];
        assert MacTaken(rows1, key) by {
          assert rows1[|rows|].macAddress == key;
        }
        if PayloadById(catalog, chosen.payloadId) == Some(chosen) {
          RecordedRowFound(rows, catalog, key, chosen);
        } else if PayloadById(catalog, chosen.payloadId).None? {
          RecordedOrphanMissed(rows, catalog, key, chosen.payloadId);
        }
      } else {
        assert payloads.db.nodePayloads == rows;
      }
      second := HandleNodePayloadGet(segment, remoteAddr, none);
      if old(DefaultAgrees()) && found.None? {
        assert PayloadById(catalog, chosen.payloadId).Some? ==> PayloadById(catalog, chosen.payloadId) == Some(chosen);
      }
    }

    /**
     * PUT /api/v2/payload/ (http.go:174-243): validate the body, check the
     * payload id against the catalog, then reassign the device's payload.
     */
    method HandleNodePayloadPut(body: Body<NodePayloadDb>, catalogFault: Option<Error>, updateFault: Option<Error>)
      returns (resp: Response<NodePayloadDb>)
      requires payloads.db.Valid()
      modifies payloads.db
      ensures payloads.db.Valid()
      ensures payloads.db.payloads == old(payloads.db.payloads)
      ensures payloads.db.subnetDefaultPayloads == old(payloads.db.subnetDefaultPayloads)
      ensures payloads.db.ImageTables() == old(payloads.db.ImageTables())
      ensures body.Undecodable? ==> resp == ErrorList(["cannot json decode NodePayload request: " + body.reason])
      ensures body.Null? ==> resp == Aborted
      ensures body.Decoded? && MissingFields(NodePayloadFields, NodePayloadValues(body.value)) != [] ==>
        resp == ErrorList(MissingFields(NodePayloadFields, NodePayloadValues(body.value)))
      ensures body.Decoded? && MissingFields(NodePayloadFields, NodePayloadValues(body.value)) == []
              && PayloadKey(body.value.macAddress).None? ==>
        resp == ErrorList(["Invalid mac_address"])
      ensures body.Decoded? && MissingFields(NodePayloadFields, NodePayloadValues(body.value)) == []
              && PayloadKey(body.value.macAddress).Some?
              && body.value.payloadId !in old(payloads.db.GetAvailablePayloads(catalogFault)) ==>
        resp == ErrorList(["PayloadId doesn't exist",
                           "Available Payloads: " + FormatList(old(payloads.db.GetAvailablePayloads(catalogFault)))])
      ensures var updated := body.Decoded? && MissingFields(NodePayloadFields, NodePayloadValues(body.value)) == []
              && PayloadKey(body.value.macAddress).Some?
              && body.value.payloadId in old(payloads.db.GetAvailablePayloads(catalogFault));
        !updated ==> payloads.db.nodePayloads == old(payloads.db.nodePayloads)
      ensures body.Decoded? && MissingFields(NodePayloadFields, NodePayloadValues(body.value)) == []
              && PayloadKey(body.value.macAddress).Some?
              && body.value.payloadId in old(payloads.db.GetAvailablePayloads(catalogFault)) ==>
        var request := NodePayloadDb(body.value.payloadId, PayloadKey(body.value.macAddress).value);
        && resp == (if updateFault.Some? then ErrorList([ErrorText(PayloadUpdateFailure(updateFault.value, request))])
                    else if !old(AnyPayloadRowLike(payloads.db.nodePayloads, request.macAddress))
                    then ErrorList(["mac_address not in database: " + ShowNodePayloadDb(request)])
                    else Served(request))
        && (resp == Served(request) <==> updateFault.None? && old(AnyPayloadRowLike(payloads.db.nodePayloads, request.macAddress)))
        && payloads.db.nodePayloads ==
             if resp.Served? then ReassignPayload(old(payloads.db.nodePayloads), request.macAddress, request.payloadId)
             else old(payloads.db.nodePayloads)
    {
      var npd: NodePayloadDb;
      match body {
        case Undecodable(reason) =>
          return ErrorList(["cannot json decode NodePayload request: " + reason]);
        case Null =>
          // npd.PayloadId on a nil pointer.
          return Aborted;
        case Decoded(v) =>
          npd := v;
      }
      var errors := NodePayloadPutErrors(npd);
      if |errors| > 0 {
        return ErrorList(errors);
      }

      var macAddress := Canonical(npd.macAddress);
      if |macAddress| == 7 {
        macAddress := "%" + macAddress[1..];
      }
      if |macAddress| != 12 && |macAddress| != 7 {
        return ErrorList(["Invalid mac_address"]);
      }
      assert PayloadKey(npd.macAddress) == Some(macAddress);
      npd := npd.(macAddress := macAddress);

      var available := payloads.db.GetAvailablePayloads(catalogFault);
      var known := Contains(available, npd.payloadId);
      if !known {
        return ErrorList(["PayloadId doesn't exist", "Available Payloads: " + FormatList(available)]);
      }

      resp := ReassignValidated(npd, updateFault);
    }

    /** The last step of the payload PUT: reassign a validated request and report the outcome. */
    method ReassignValidated(request: NodePayloadDb, updateFault: Option<Error>) returns (resp: Response<NodePayloadDb>)
      requires payloads.db.Valid()
      modifies payloads.db
      ensures payloads.db.Valid()
      ensures payloads.db.payloads == old(payloads.db.payloads)
      ensures payloads.db.subnetDefaultPayloads == old(payloads.db.subnetDefaultPayloads)
      ensures payloads.db.ImageTables() == old(payloads.db.ImageTables())
      ensures resp == (if updateFault.Some? then ErrorList([ErrorText(PayloadUpdateFailure(updateFault.value, request))])
                       else if !old(AnyPayloadRowLike(payloads.db.nodePayloads, request.macAddress))
                       then ErrorList(["mac_address not in database: " + ShowNodePayloadDb(request)])
                       else Served(request))
      ensures resp == Served(request) <==> updateFault.None? && old(AnyPayloadRowLike(payloads.db.nodePayloads, request.macAddress))
      ensures payloads.db.nodePayloads ==
        if resp.Served? then ReassignPayload(old(payloads.db.nodePayloads), request.macAddress, request.payloadId)
        else old(payloads.db.nodePayloads)
    {
      ghost var matched := AnyPayloadRowLike(payloads.db.nodePayloads, request.macAddress);
      var updated := payloads.db.UpdateNodePayload(request, updateFault);
      if updated.Err? {
        assert updated.error == if updateFault.Some? then PayloadUpdateFailure(updateFault.value, request)
                                else Message("mac_address not in database: " + ShowNodePayloadDb(request));
        return ErrorList([ErrorText(updated.error)]);
      }
      assert updateFault.None? && matched;
      resp := Served(updated.value);
    }

    /**
     * GET /api/v2/ipxe/config/<mac> (http.go:276-311): the device's boot
     * configuration, or the process-wide default when there is none or it
     * fails. It writes nothing to the store.
     */
    method HandleGetNodeIpxe(segment: string, nodeImagesFault: Option<Error>, imagesFault: Option<Error>)
      returns (resp: Response<IpxeConfig>)
      ensures !Routable(segment) ==> resp == NotFound(NotFoundPage)
      ensures Routable(segment) ==>
        match ipxe.GetNodeIpxeConfig(Canonical(segment), nodeImagesFault, imagesFault)
        case Ok(Some(ic)) => resp == Served(ic)
        case Ok(None) => resp == Served(ipxe.GetIpxeApiDefault())
        case Err(e) =>
          resp == if IsContextError(e) then Silent
                  else if e.Panicked? then Aborted
                  else Served(ipxe.GetIpxeApiDefault())
      ensures resp == Aborted ==> |Canonical(segment)| < 12
    {
      if !Routable(segment) {
        return NotFound(NotFoundPage);
      }
      var macAddress := Canonical(segment);
      var parameters := ipxe.GetNodeIpxeConfig(macAddress, nodeImagesFault, imagesFault);
      if parameters.Err? && IsContextError(parameters.error) {
        return Silent;
      }
      if parameters.Err? && parameters.error.Panicked? {
        // SetHostname sliced a key shorter than 12 characters.
        return Aborted;
      }
      if parameters.Err? || parameters.value.None? {
        return Served(ipxe.GetIpxeApiDefault());
      }
      resp := Served(parameters.value.value);
    }

    /**
     * GET /api/v2/ipxe/template/<mac> (http.go:422-481): the device's boot
     * configuration, else the subnet's, else the process-wide default, whose
     * image is then recorded for the device.
     */
    method HandleGetNodeIpxeTemplate(segment: string, remoteAddr: string, faults: TemplateFaults)
      returns (resp: Response<IpxeConfig>)
      requires ipxe.db.Valid()
      modifies ipxe.db
      ensures ipxe.db.Valid()
      ensures ipxe.db.images == old(ipxe.db.images)
      ensures ipxe.db.subnetDefaultImages == old(ipxe.db.subnetDefaultImages)
      ensures ipxe.db.PayloadTables() == old(ipxe.db.PayloadTables())
      ensures !Routable(segment) ==> resp == NotFound(NotFoundPage)
      ensures Routable(segment) && TemplateKey(segment).None? ==> resp == ErrorList(["Invalid mac_address"])
      ensures !Routable(segment) || TemplateKey(segment).None? ==> ipxe.db.nodeImages == old(ipxe.db.nodeImages)
      ensures Routable(segment) && TemplateKey(segment).Some? ==>
        var key := TemplateKey(segment).value;
        match old(ipxe.GetNodeIpxeConfig(key, faults.nodeImages, faults.images))
        case Ok(Some(device)) =>
          resp == Served(device) && ipxe.db.nodeImages == old(ipxe.db.nodeImages)
        case _ =>
          var subnet := old(ipxe.GetSubnetDefaultIpxeConfig(RequestIp(remoteAddr), faults.subnet));
          var chosen := if subnet.Some? then subnet.value else ipxe.GetIpxeApiDefault();
          var row := IpxeNodeDbConfig(chosen.imageTag, chosen.imageType, key);
          && resp == Served(chosen)
          && ipxe.db.nodeImages ==
               if faults.insert.None? && !old(ImageMacTaken(ipxe.db.nodeImages, key))
               then old(ipxe.db.nodeImages) + [row]
               else old(ipxe.db.nodeImages)
    {
      if !Routable(segment) {
        return NotFound(NotFoundPage);
      }
      var macAddress := Canonical(segment);
      if |macAddress| != 12 {
        return ErrorList(["Invalid mac_address"]);
      }
      var device := ipxe.GetNodeIpxeConfig(macAddress, faults.nodeImages, faults.images);
      if device.Ok? && device.value.Some? {
        return Served(device.value.value);
      }
      var subnet := ipxe.GetSubnetDefaultIpxeConfig(RequestIp(remoteAddr), faults.subnet);
      var chosen := if subnet.Some? then subnet.value else ipxe.GetIpxeApiDefault();
      var _ := ipxe.db.CreateNodeIpxeConfig(IpxeNodeDbConfig(chosen.imageTag, chosen.imageType, macAddress), faults.insert);
      resp := Served(chosen);
    }

    /**
     * Two fault-free template GETs of a device never seen before, whose
     * subnet has a default image: both serve that image, but the first, from
     * the subnet tier, has no hostname, while the second, which reads the row
     * the first recorded, has the derived one; the two responses differ.
     */
    method RepeatedTemplateGet(segment: string, remoteAddr: string) returns (first: Response<IpxeConfig>, second: Response<IpxeConfig>)
      requires ipxe.db.Valid()
      requires Routable(segment) && |Canonical(segment)| == 12 && Literal(Canonical(segment))
      requires !ImageMacTaken(ipxe.db.nodeImages, Canonical(segment))
      requires ipxe.GetSubnetDefaultIpxeConfig(RequestIp(remoteAddr), None).Some?
      modifies ipxe.db
      ensures ipxe.db.Valid()
      ensures first == Served(old(ipxe.GetSubnetDefaultIpxeConfig(RequestIp(remoteAddr), None)).value)
      ensures first.value.hostname == ""
      ensures second.Served? && second.value == first.value.(hostname := "g" + Canonical(segment)[6..12])
      ensures second != first
      ensures ipxe.db.nodeImages ==
        old(ipxe.db.nodeImages) + [IpxeNodeDbConfig(first.value.imageTag, first.value.imageType, Canonical(segment))]
    {
      var none := TemplateFaults(None, None, None, None);
      var key := Canonical(segment);
      assert TemplateKey(segment) == Some(key);
      ghost var rows, images := ipxe.db.nodeImages, ipxe.db.images;
      ghost var idc := ipxe.db.GetSubnetDefaultIpxeDbConfig(RequestIp(remoteAddr), None).value;
      ghost var urls := ipxe.PresignedUrls(idc.imageBucket, idc.imageName, Ipxe.UrlLifetimeSecs).value;
      ImageRowsMiss(rows, key);
      assert ipxe.GetNodeIpxeConfig(key, None, None) == Ok(None);
      first := HandleGetNodeIpxeTemplate(segment, remoteAddr, none);
      assert Ipxe.Serves(first.value, idc, urls);
      assert ImageByKey(images, idc.imageTag, idc.imageType) == Some(idc);
      RecordedImageFound(rows, images, key, idc);
      assert ipxe.db.GetIpxeDbConfig(key, None, None) == Ok(idc);
      ghost var device := Ipxe.Dto(Ipxe.SetHostname(Ipxe.Hydrate(idc, urls), key));
      assert ipxe.GetNodeIpxeConfig(key, None, None) == Ok(Some(device));
      second := HandleGetNodeIpxeTemplate(segment, remoteAddr, none);
      assert second == Served(device);
      assert second.value.hostname != first.value.hostname;
    }

    /**
     * The template GET with the derived hostname set on every tier, as the
     * device tier sets it: a first contact is then served exactly what the
     * device's later requests are.
     */
    method HandleGetNodeIpxeTemplateHosted(segment: string, remoteAddr: string, faults: TemplateFaults)
      returns (resp: Response<IpxeConfig>)
      requires ipxe.db.Valid()
      modifies ipxe.db
      ensures ipxe.db.Valid()
      ensures ipxe.db.images == old(ipxe.db.images)
      ensures ipxe.db.subnetDefaultImages == old(ipxe.db.subnetDefaultImages)
      ensures ipxe.db.PayloadTables() == old(ipxe.db.PayloadTables())
      ensures !Routable(segment) ==> resp == NotFound(NotFoundPage)
      ensures Routable(segment) && TemplateKey(segment).None? ==> resp == ErrorList(["Invalid mac_address"])
      ensures !Routable(segment) || TemplateKey(segment).None? ==> ipxe.db.nodeImages == old(ipxe.db.nodeImages)
      ensures Routable(segment) && TemplateKey(segment).Some? ==>
        var key := TemplateKey(segment).value;
        match old(ipxe.GetNodeIpxeConfig(key, faults.nodeImages, faults.images))
        case Ok(Some(device)) =>
          resp == Served(device) && ipxe.db.nodeImages == old(ipxe.db.nodeImages)
        case _ =>
          var subnet := old(ipxe.GetSubnetDefaultIpxeConfig(RequestIp(remoteAddr), faults.subnet));
          var chosen := if subnet.Some? then subnet.value else ipxe.GetIpxeApiDefault();
          var row := IpxeNodeDbConfig(chosen.imageTag, chosen.imageType, key);
          && resp == Served(chosen.(hostname := "g" + key[6..12]))
          && ipxe.db.nodeImages ==
               if faults.insert.None? && !old(ImageMacTaken(ipxe.db.nodeImages, key))
               then old(ipxe.db.nodeImages) + [row]
               else old(ipxe.db.nodeImages)
    {
      if !Routable(segment) {
        return NotFound(NotFoundPage);
      }
      var macAddress := Canonical(segment);
      if |macAddress| != 12 {
        return ErrorList(["Invalid mac_address"]);
      }
      var device := ipxe.GetNodeIpxeConfig(macAddress, faults.nodeImages, faults.images);
      if device.Ok? && device.value.Some? {
        return Served(device.value.value);
      }
      var subnet := ipxe.GetSubnetDefaultIpxeConfig(RequestIp(remoteAddr), faults.subnet);
      var chosen := if subnet.Some? then subnet.value else ipxe.GetIpxeApiDefault();
      var _ := ipxe.db.CreateNodeIpxeConfig(IpxeNodeDbConfig(chosen.imageTag, chosen.imageType, macAddress), faults.insert);
      resp := Served(Ipxe.SetHostname(chosen, macAddress));
    }

    /**
     * With the hostname set on every tier, two fault-free template GETs of a
     * device never seen before, whose subnet has a default image, serve the
     * same configuration, hostname included.
     */
    method RepeatedTemplateGetHosted(segment: string, remoteAddr: string) returns (first: Response<IpxeConfig>, second: Response<IpxeConfig>)
      requires ipxe.db.Valid()
      requires Routable(segment) && |Canonical(segment)| == 12 && Literal(Canonical(segment))
      requires !ImageMacTaken(ipxe.db.nodeImages, Canonical(segment))
      requires ipxe.GetSubnetDefaultIpxeConfig(RequestIp(remoteAddr), None).Some?
      modifies ipxe.db
      ensures ipxe.db.Valid()
      ensures first.Served? && first.value.hostname == "g" + Canonical(segment)[6..12]
      ensures second == first
      ensures ipxe.db.nodeImages ==
        old(ipxe.db.nodeImages) + [IpxeNodeDbConfig(first.value.imageTag, first.value.imageType, Canonical(segment))]
    {
      var none := TemplateFaults(None, None, None, None);
      var key := Canonical(segment);
      assert TemplateKey(segment) == Some(key);
      ghost var rows, images := ipxe.db.nodeImages, ipxe.db.images;
      ghost var idc := ipxe.db.GetSubnetDefaultIpxeDbConfig(RequestIp(remoteAddr), None).value;
      ghost var urls := ipxe.PresignedUrls(idc.imageBucket, idc.imageName, Ipxe.UrlLifetimeSecs).value;
      ImageRowsMiss(rows, key);
      assert ipxe.GetNodeIpxeConfig(key, None, None) == Ok(None);
      first := HandleGetNodeIpxeTemplateHosted(segment, remoteAddr, none);
      assert Ipxe.Serves(first.value, idc, urls);
      assert ImageByKey(images, idc.imageTag, idc.imageType) == Some(idc);
      RecordedImageFound(rows, images, key, idc);
      assert ipxe.db.GetIpxeDbConfig(key, None, None) == Ok(idc);
      ghost var device := Ipxe.Dto(Ipxe.SetHostname(Ipxe.Hydrate(idc, urls), key));
      assert ipxe.GetNodeIpxeConfig(key, None, None) == Ok(Some(device));
      second := HandleGetNodeIpxeTemplateHosted(segment, remoteAddr, none);
      assert second == Served(device);
    }

    /**
     * PUT /api/v2/ipxe/images/ (http.go:339-385): validate the body, then
     * insert the image and presign its objects.
     */
    method HandleIpxeImagesPut(body: Body<IpxeDbConfig>, insertFault: Option<Error>)
      returns (resp: Response<IpxeConfig>)
      requires ipxe.db.Valid()
      modifies ipxe.db
      ensures ipxe.db.Valid()
      ensures ipxe.db.nodeImages == old(ipxe.db.nodeImages)
      ensures ipxe.db.subnetDefaultImages == old(ipxe.db.subnetDefaultImages)
      ensures ipxe.db.PayloadTables() == old(ipxe.db.PayloadTables())
      ensures body.Undecodable? ==> resp == ErrorList(["cannot json decode IpxeDbConfig request: " + body.reason])
      ensures body.Null? ==> resp == Aborted
      ensures body.Decoded? && MissingFields(ImageFields, ImageValues(body.value)) != [] ==>
        resp == ErrorList(MissingFields(ImageFields, ImageValues(body.value)))
      ensures var valid := body.Decoded? && MissingFields(ImageFields, ImageValues(body.value)) == [];
        ipxe.db.images ==
          if valid && insertFault.None? && !old(ImageKeyTaken(ipxe.db.images, body.value.imageTag, body.value.imageType))
          then old(ipxe.db.images) + [body.value]
          else old(ipxe.db.images)
      ensures body.Decoded? && MissingFields(ImageFields, ImageValues(body.value)) == [] ==>
        var config := body.value;
        var taken := old(ImageKeyTaken(ipxe.db.images, config.imageTag, config.imageType));
        if insertFault.Some? || taken then
          resp == ErrorList([ErrorText(ImageInsertFailure(InsertDriverError(insertFault, taken, ImagesTagTypeKey).value))])
        else match ipxe.PresignedUrls(config.imageBucket, config.imageName, Ipxe.UrlLifetimeSecs)
          case Ok(urls) => resp.Served? && Ipxe.Serves(resp.value, config, urls) && resp.value.hostname == ""
          case Err(e) => resp == ErrorList([ErrorText(e)])
    {
      var ic: IpxeDbConfig;
      match body {
        case Undecodable(reason) =>
          return ErrorList(["cannot json decode IpxeDbConfig request: " + reason]);
        case Null =>
          // ic.ImageName on a nil pointer.
          return Aborted;
        case Decoded(v) =>
          ic := v;
      }
      var errors := ImagePutErrors(ic);
      if |errors| > 0 {
        return ErrorList(errors);
      }
      var config, err := ipxe.CreateIpxeImage(ic, insertFault);
      if err.Some? {
        return ErrorList([ErrorText(err.value)]);
      }
      resp := Served(config.value);
    }

    /**
     * GET /api/v2/ipxe/s3/<image> (http.go:485-518): the image's three URLs in
     * the default bucket, as text. It presigns nothing but that image's keys.
     */
    method HandlePresignedUrls(segment: string) returns (resp: Response<string>)
      ensures !Routable(segment) ==> resp == NotFound(NotFoundPage)
      ensures Routable(segment) ==>
        match ipxe.PresignedUrls("", segment, Ipxe.UrlLifetimeSecs)
        case Err(e) => resp == if IsContextError(e) then Silent else InternalError(InternalServerError)
        case Ok(urls) =>
          resp == if urls.initrd == "" then NotFound("imageInitrdUrlHttps not found")
                  else if urls.kernel == "" then NotFound("imageKernelUrlHttps not found")
                  else if urls.rootFs == "" then NotFound("imageRootFsUrlHttps not found")
                  else Served(UrlsText(urls))
      ensures Routable(segment) ==>
        forall req :: req in ipxe.Requests("", segment, Ipxe.UrlLifetimeSecs) ==>
          req.bucket == ipxe.defaultBucket && req.lifetimeSecs == 900 && req.key in Ipxe.ImageObjectKeys(segment)
    {
      if !Routable(segment) {
        return NotFound(NotFoundPage);
      }
      var initrd, kernel, rootFs, err, _ := ipxe.GetIpxeImagePresignedUrls("", segment, Ipxe.UrlLifetimeSecs);
      if err.Some? {
        if IsContextError(err.value) {
          return Silent;
        }
        return InternalError(InternalServerError);
      }
      if initrd == "" {
        return NotFound("imageInitrdUrlHttps not found");
      }
      if kernel == "" {
        return NotFound("imageKernelUrlHttps not found");
      }
      if rootFs == "" {
        return NotFound("imageRootFsUrlHttps not found");
      }
      resp := Served(UrlsText(Ipxe.ImageUrls(initrd, kernel, rootFs)));
    }
  }
}

=== FILE: errors.dfy ===
/**
 * Go error values that cross the core's boundaries: the two context errors,
 * pgx's ErrNoRows, the Postgres driver's *pgconn.PgError, the packages'
 * ValidationError, and plain messages built with errors.New or fmt.Errorf.
 */
module Errors {

  datatype Error =
    | Canceled                                               // context.Canceled
    | DeadlineExceeded                                       // context.DeadlineExceeded
    | NoRows                                                 // pgx.ErrNoRows
    | PgError(code: string, constraint: string, message: string) // *pgconn.PgError (SQLSTATE code)
    | Validation(msg: string)                                // payloads/ipxe ValidationError
    | Message(msg: string)                                   // errors.New / fmt.Errorf
    | Panicked(msg: string)                                  // a Go runtime panic, not an error value

  /** SQLSTATE of a uniqueness violation (pgerrcode.UniqueViolation). */
  const UniqueViolation: string := "23505"
  /** SQLSTATE of a CHECK constraint violation (pgerrcode.CheckViolation). */
  const CheckViolation: string := "23514"

  /** The errors every store query hands back unchanged, before any other classification. */
  predicate IsContextError(e: Error) {
    e == Canceled || e == DeadlineExceeded
  }

  /** What `err.Error()` returns. */
  function ErrorText(e: Error): string {
    match e
    case Canceled => "context canceled"
    case DeadlineExceeded => "context deadline exceeded"
    case NoRows => "no rows in result set"
    case PgError(code, _, message) => "ERROR: " + message + " (SQLSTATE " + code + ")"
    case Validation(msg) => msg
    case Message(msg) => msg
    case Panicked(msg) => msg
  }
}

=== FILE: ipxe.dfy ===
/**
 * The ipxe service (pkg/ipxe/ipxe.go): it turns an images row into a boot
 * configuration by presigning the image's three objects in the object store,
 * and it supplies the process-wide default configuration.
 *
 * The object store is abstract: `presign` and `getObject` are fallible
 * functions given to the service, standing for the S3 presigner and client.
 */
module Ipxe {
  import opened Wrappers
  import opened Errors
  import opened Text
  import opened Records
  import opened Postgres

  /** The lifetime, in seconds, of every URL the service presigns. */
  const UrlLifetimeSecs: int := 900

  /** One call of the presigner: bucket, object key and lifetime in seconds. */
  datatype PresignRequest = PresignRequest(bucket: string, key: string, lifetimeSecs: int)

  /** The three presigned https URLs of an image. */
  datatype ImageUrls = ImageUrls(initrd: string, kernel: string, rootFs: string)

  /** What the runtime reports for `macAddress[6:12]` on a string shorter than 12. */
  const SliceOutOfRange: string := "runtime error: slice bounds out of range"

  // ---------------------------------------------------------------------
  // Object keys
  // ---------------------------------------------------------------------

  /** The object keys of an image's initrd, kernel and root file system, in signing order. */
  function ImageObjectKeys(imageName: string): (keys: seq<string>)
    ensures |keys| == 3
  {
    [imageName + "/initrd.img", imageName + "/vmlinuz", imageName + "/rootfs.cpio.gz"]
  }

  /** The three keys are distinct objects, all under `<imageName>/`. */
  lemma ImageObjectKeysDistinct(imageName: string)
    ensures var keys := ImageObjectKeys(imageName);
      forall i, j :: 0 <= i < j < 3 ==> keys[i] != keys[j]
    ensures var keys := ImageObjectKeys(imageName);
      forall i :: 0 <= i < 3 ==> |imageName| < |keys[i]| && keys[i][..|imageName| + 1] == imageName + "/"
  {
  }

  /** An empty setting replaced by its default. */
  function OrDefault(value: string, fallback: string): string {
    if value == "" then fallback else value
  }

  // ---------------------------------------------------------------------
  // IpxeConfig.dto and SetHostname
  // ---------------------------------------------------------------------

  /** `ic` with each http URL derived from its https URL by replacing the first "https" with "http". */
  function Dto(ic: IpxeConfig): (r: IpxeConfig)
    ensures r.imageInitrdUrlHttp == ReplaceFirst(ic.imageInitrdUrlHttps, "https", "http")
    ensures r.imageKernelUrlHttp == ReplaceFirst(ic.imageKernelUrlHttps, "https", "http")
    ensures r.imageRootFsUrlHttp == ReplaceFirst(ic.imageRootFsUrlHttps, "https", "http")
    ensures r.(imageInitrdUrlHttp := ic.imageInitrdUrlHttp, imageKernelUrlHttp := ic.imageKernelUrlHttp,
               imageRootFsUrlHttp := ic.imageRootFsUrlHttp) == ic
  {
    ic.(imageInitrdUrlHttp := ReplaceFirst(ic.imageInitrdUrlHttps, "https", "http"),
        imageKernelUrlHttp := ReplaceFirst(ic.imageKernelUrlHttps, "https", "http"),
        imageRootFsUrlHttp := ReplaceFirst(ic.imageRootFsUrlHttps, "https", "http"))
  }

  /** The http URLs depend on the https URLs only, so copying twice is copying once. */
  lemma DtoIdempotent(ic: IpxeConfig)
    ensures Dto(Dto(ic)) == Dto(ic)
  {
  }

  /** An https URL yields the same URL with scheme http. */
  lemma DtoHttpsScheme(url: string)
    requires |url| >= 5 && url[..5] == "https"
    ensures ReplaceFirst(url, "https", "http") == "http" + url[5..]
  {
  }

  /** A text with no "https" in it (an error message, say) is copied to the http field unchanged. */
  lemma DtoWithoutHttps(text: string)
    requires forall i :: !OccursAt(text, "https", i)
    ensures ReplaceFirst(text, "https", "http") == text
  {
    ReplaceFirstAbsent(text, "https", "http");
  }

  /** SetHostname: the hostname is "g" followed by characters 6 to 11 of the mac, and nothing else changes. */
  function SetHostname(ic: IpxeConfig, macAddress: string): (r: IpxeConfig)
    requires |macAddress| >= 12
    ensures |r.hostname| == 7 && r.hostname[0] == 'g' && r.hostname[1..] == macAddress[6..12]
    ensures r.(hostname := ic.hostname) == ic
  {
    ic.(hostname := "g" + macAddress[6..12])
  }

  /** The configuration built from an images row and its URLs, before dto and SetHostname. */
  function Hydrate(idc: IpxeDbConfig, urls: ImageUrls): IpxeConfig {
    IpxeConfig(idc.imageName, idc.imageBucket, idc.imageTag, idc.imageType,
               "", urls.initrd, "", urls.kernel, "", urls.rootFs, idc.imageCmdline, "")
  }

  /** `ic` is the served form of `idc` signed with `urls`: the row's fields, the URLs and their http variants. */
  predicate Serves(ic: IpxeConfig, idc: IpxeDbConfig, urls: ImageUrls) {
    && ic.imageName == idc.imageName && ic.imageBucket == idc.imageBucket
    && ic.imageTag == idc.imageTag && ic.imageType == idc.imageType
    && ic.imageCmdline == idc.imageCmdline
    && ic.imageInitrdUrlHttps == urls.initrd && ic.imageKernelUrlHttps == urls.kernel
    && ic.imageRootFsUrlHttps == urls.rootFs
    && ic.imageInitrdUrlHttp == ReplaceFirst(urls.initrd, "https", "http")
    && ic.imageKernelUrlHttp == ReplaceFirst(urls.kernel, "https", "http")
    && ic.imageRootFsUrlHttp == ReplaceFirst(urls.rootFs, "https", "http")
  }

  /** The service: its store, the object store, and the defaults main.go configures. */
  datatype Service = Service(
    db: DB,
    presign: (string, string, int) -> Result<string, Error>,
    getObject: (string, string) -> Result<string, Error>,
    defaultImage: string,
    defaultImageTag: string,
    defaultImageType: string,
    defaultBucket: string)
  {
    // -------------------------------------------------------------------
    // GetIpxeImagePresignedUrls
    // -------------------------------------------------------------------

    /** The three requests a presign of (bucket, imageName) issues when none fails, defaults applied. */
    function Requests(bucket: string, imageName: string, lifetimeSecs: int): (reqs: seq<PresignRequest>)
      ensures |reqs| == 3
      ensures forall i :: 0 <= i < 3 ==>
        reqs[i] == PresignRequest(OrDefault(bucket, defaultBucket), ImageObjectKeys(OrDefault(imageName, defaultImage))[i], lifetimeSecs)
    {
      var b := OrDefault(bucket, defaultBucket);
      var keys := ImageObjectKeys(OrDefault(imageName, defaultImage));
      [PresignRequest(b, keys[0], lifetimeSecs), PresignRequest(b, keys[1], lifetimeSecs), PresignRequest(b, keys[2], lifetimeSecs)]
    }

    /**
     * One presign call. The presigner reports failure as an error value and
     * never panics, so a `Panicked` it hands back is read as a plain message.
     */
    function Sign(req: PresignRequest): (r: Result<string, Error>)
      ensures r.Err? ==> !r.error.Panicked?
      ensures presign(req.bucket, req.key, req.lifetimeSecs).Err? && !presign(req.bucket, req.key, req.lifetimeSecs).error.Panicked? ==>
        r == presign(req.bucket, req.key, req.lifetimeSecs)
      ensures presign(req.bucket, req.key, req.lifetimeSecs).Ok? ==> r == presign(req.bucket, req.key, req.lifetimeSecs)
      ensures presign(req.bucket, req.key, req.lifetimeSecs).Err? ==>
        r.Err? && ErrorText(r.error) == ErrorText(presign(req.bucket, req.key, req.lifetimeSecs).error)
    {
      match presign(req.bucket, req.key, req.lifetimeSecs)
      case Err(Panicked(msg)) => Err(Message(msg))
      case other => other
    }

    /** All three URLs, or the error of the first request that fails. */
    function PresignedUrls(bucket: string, imageName: string, lifetimeSecs: int): (r: Result<ImageUrls, Error>)
      ensures var reqs := Requests(bucket, imageName, lifetimeSecs);
        r.Ok? <==> forall i :: 0 <= i < 3 ==> Sign(reqs[i]).Ok?
      ensures var reqs := Requests(bucket, imageName, lifetimeSecs);
        r.Ok? ==> r.value == ImageUrls(Sign(reqs[0]).value, Sign(reqs[1]).value, Sign(reqs[2]).value)
      ensures var reqs := Requests(bucket, imageName, lifetimeSecs);
        r.Err? ==> exists i :: 0 <= i < 3 && Sign(reqs[i]) == Err(r.error) && forall j :: 0 <= j < i ==> Sign(reqs[j]).Ok?
    {
      var reqs := Requests(bucket, imageName, lifetimeSecs);
      match Sign(reqs[0])
      case Err(e) => Err(e)
      case Ok(initrd) =>
        match Sign(reqs[1])
        case Err(e) => Err(e)
        case Ok(kernel) =>
          match Sign(reqs[2])
          case Err(e) => Err(e)
          case Ok(rootFs) => Ok(ImageUrls(initrd, kernel, rootFs))
    }

    /**
     * ipxe.go:200-239. `issued` lists the presign calls made, in order: the
     * requests up to and including the first that fails, or all three.
     */
    method GetIpxeImagePresignedUrls(bucket: string, imageName: string, lifetimeSecs: int)
      returns (initrd: string, kernel: string, rootFs: string, err: Option<Error>, issued: seq<PresignRequest>)
      ensures issued != [] && issued <= Requests(bucket, imageName, lifetimeSecs)
      ensures forall i :: 0 <= i < |issued| - 1 ==> Sign(issued[i]).Ok?
      ensures err.Some? <==> Sign(issued[|issued| - 1]).Err?
      ensures err.Some? ==> Sign(issued[|issued| - 1]) == Err(err.value) && initrd == kernel == rootFs == ""
      ensures err.None? ==> |issued| == 3
      ensures match PresignedUrls(bucket, imageName, lifetimeSecs)
              case Ok(urls) => err.None? && ImageUrls(initrd, kernel, rootFs) == urls
              case Err(e) => err == Some(e)
    {
      var b := bucket;
      if b == "" {
        b := defaultBucket;
      }
      var image := imageName;
      if image == "" {
        image := defaultImage;
      }
      var initrdKey := image + "/initrd.img";
      var kernelKey := image + "/vmlinuz";
      var rootFsKey := image + "/rootfs.cpio.gz";
      ghost var reqs := Requests(bucket, imageName, lifetimeSecs);
      assert reqs == [PresignRequest(b, initrdKey, lifetimeSecs), PresignRequest(b, kernelKey, lifetimeSecs),
                      PresignRequest(b, rootFsKey, lifetimeSecs)];

      issued := [PresignRequest(b, initrdKey, lifetimeSecs)];
      var initrdReq := Sign(PresignRequest(b, initrdKey, lifetimeSecs));
      if initrdReq.Err? {
        return "", "", "", Some(initrdReq.error), issued;
      }
      issued := issued + [PresignRequest(b, kernelKey, lifetimeSecs)];
      var kernelReq := Sign(PresignRequest(b, kernelKey, lifetimeSecs));
      if kernelReq.Err? {
        return "", "", "", Some(kernelReq.error), issued;
      }
      issued := issued + [PresignRequest(b, rootFsKey, lifetimeSecs)];
      var rootFsReq := Sign(PresignRequest(b, rootFsKey, lifetimeSecs));
      if rootFsReq.Err? {
        return "", "", "", Some(rootFsReq.error), issued;
      }
      initrd, kernel, rootFs, err := initrdReq.value, kernelReq.value, rootFsReq.value, None;
    }

    // -------------------------------------------------------------------
    // The three configuration tiers
    // -------------------------------------------------------------------

    /** ipxe.go:87-119: the device's configuration; a store error is no configuration, a presign error is an error. */
    function GetNodeIpxeConfig(macAddress: string, nodeImagesFault: Option<Error>, imagesFault: Option<Error>)
      : (r: Result<Option<IpxeConfig>, Error>)
      reads db
      ensures macAddress == "" ==> r == Err(Validation("missing macAddress"))
      ensures var found := db.GetIpxeDbConfig(macAddress, nodeImagesFault, imagesFault);
        r == Ok(None) <==> macAddress != "" && found.Err?
      ensures var found := db.GetIpxeDbConfig(macAddress, nodeImagesFault, imagesFault);
        r.Err? && macAddress != "" ==>
          && found.Ok?
          && match PresignedUrls(found.value.imageBucket, found.value.imageName, UrlLifetimeSecs)
             case Err(e) => r.error == e
             case Ok(_) => |macAddress| < 12 && r.error == Panicked(SliceOutOfRange)
      ensures var found := db.GetIpxeDbConfig(macAddress, nodeImagesFault, imagesFault);
        r.Ok? && r.value.Some? ==>
          && found.Ok?
          && var urls := PresignedUrls(found.value.imageBucket, found.value.imageName, UrlLifetimeSecs);
          && urls.Ok?
          && Serves(r.value.value, found.value, urls.value)
          && |macAddress| >= 12 && r.value.value.hostname == "g" + macAddress[6..12]
    {
      if macAddress == "" then Err(Validation("missing macAddress"))
      else match db.GetIpxeDbConfig(macAddress, nodeImagesFault, imagesFault)
        case Err(_) => Ok(None)
        case Ok(idc) =>
          match PresignedUrls(idc.imageBucket, idc.imageName, UrlLifetimeSecs)
          case Err(e) => Err(e)
          case Ok(urls) =>
            if |macAddress| < 12 then Err(Panicked(SliceOutOfRange))
            else Ok(Some(Dto(SetHostname(Hydrate(idc, urls), macAddress))))
    }

    /** ipxe.go:123-154: the configuration of the first subnet containing the address; any failure is none. */
    function GetSubnetDefaultIpxeConfig(ipAddress: string, fault: Option<Error>): (r: Option<IpxeConfig>)
      reads db
      ensures ipAddress == "" ==> r == None
      ensures r.Some? <==>
        && ipAddress != ""
        && db.GetSubnetDefaultIpxeDbConfig(ipAddress, fault).Ok?
        && var idc := db.GetSubnetDefaultIpxeDbConfig(ipAddress, fault).value;
           PresignedUrls(idc.imageBucket, idc.imageName, UrlLifetimeSecs).Ok?
      ensures r.Some? ==>
        var idc := db.GetSubnetDefaultIpxeDbConfig(ipAddress, fault).value;
        && Serves(r.value, idc, PresignedUrls(idc.imageBucket, idc.imageName, UrlLifetimeSecs).value)
        && r.value.hostname == ""
    {
      if ipAddress == "" then None
      else match db.GetSubnetDefaultIpxeDbConfig(ipAddress, fault)
        case Err(_) => None
        case Ok(idc) =>
          match PresignedUrls(idc.imageBucket, idc.imageName, UrlLifetimeSecs)
          case Err(_) => None
          case Ok(urls) => Some(Dto(Hydrate(idc, urls)))
    }

    /** The default image's cmdline object, or the empty string when it cannot be fetched. */
    function DefaultCmdline(): (r: string)
      ensures getObject(defaultBucket, defaultImage + "/cmdline").Ok? ==> r == getObject(defaultBucket, defaultImage + "/cmdline").value
      ensures getObject(defaultBucket, defaultImage + "/cmdline").Err? ==> r == ""
    {
      match getObject(defaultBucket, defaultImage + "/cmdline")
      case Ok(bytes) => bytes
      case Err(_) => ""
    }

    /** ipxe.go:241-267: the process-wide default; it never fails, a presign error becomes the URLs' text. */
    function GetIpxeApiDefault(): (r: IpxeConfig)
      ensures r.imageName == defaultImage && r.imageBucket == defaultBucket
      ensures r.imageTag == defaultImageTag && r.imageType == defaultImageType
      ensures r.hostname == ""
      ensures getObject(defaultBucket, defaultImage + "/cmdline").Ok? ==>
        r.imageCmdline == getObject(defaultBucket, defaultImage + "/cmdline").value
      ensures getObject(defaultBucket, defaultImage + "/cmdline").Err? ==> r.imageCmdline == ""
      ensures match PresignedUrls(defaultBucket, defaultImage, UrlLifetimeSecs)
              case Ok(urls) =>
                && r.imageInitrdUrlHttps == urls.initrd && r.imageKernelUrlHttps == urls.kernel
                && r.imageRootFsUrlHttps == urls.rootFs
              case Err(e) =>
                r.imageInitrdUrlHttps == r.imageKernelUrlHttps == r.imageRootFsUrlHttps == ErrorText(e)
      ensures r == Dto(r)
    {
      var urls := match PresignedUrls(defaultBucket, defaultImage, UrlLifetimeSecs)
        case Ok(urls) => urls
        case Err(e) => ImageUrls(ErrorText(e), ErrorText(e), ErrorText(e));
      Dto(IpxeConfig(defaultImage, defaultBucket, defaultImageTag, defaultImageType,
                     "", urls.initrd, "", urls.kernel, "", urls.rootFs, DefaultCmdline(), ""))
    }

    // -------------------------------------------------------------------
    // CreateIpxeImage
    // -------------------------------------------------------------------

    /**
     * ipxe.go:171-187: insert the images row, then presign its objects. A
     * presign error comes back beside the configuration, whose URLs are then
     * empty; the row stays inserted.
     */
    method CreateIpxeImage(config: IpxeDbConfig, insertFault: Option<Error>)
      returns (ic: Option<IpxeConfig>, err: Option<Error>)
      requires db.Valid()
      modifies db
      ensures db.Valid()
      ensures var inserted := insertFault.None? && !old(ImageKeyTaken(db.images, config.imageTag, config.imageType));
        db.images == (if inserted then old(db.images) + [config] else old(db.images))
      ensures db.nodeImages == old(db.nodeImages) && db.subnetDefaultImages == old(db.subnetDefaultImages)
      ensures db.PayloadTables() == old(db.PayloadTables())
      ensures var taken := old(ImageKeyTaken(db.images, config.imageTag, config.imageType));
        insertFault.Some? || taken ==>
          ic.None? && err == Some(ImageInsertFailure(InsertDriverError(insertFault, taken, ImagesTagTypeKey).value))
      ensures insertFault.None? && !old(ImageKeyTaken(db.images, config.imageTag, config.imageType)) ==>
        && ic.Some?
        && match PresignedUrls(config.imageBucket, config.imageName, UrlLifetimeSecs)
           case Ok(urls) => err.None? && Serves(ic.value, config, urls)
           case Err(e) => err == Some(e) && Serves(ic.value, config, ImageUrls("", "", ""))
      ensures ic.Some? ==> ic.value.hostname == ""
    {
      var created := db.CreateIpxeImage(config, insertFault);
      if created.Err? {
        return None, Some(created.error);
      }
      var row := created.value;
      var initrd, kernel, rootFs, presignErr, _ := GetIpxeImagePresignedUrls(row.imageBucket, row.imageName, UrlLifetimeSecs);
      row := row.(imageInitrdUrlHttps := initrd);
      row := row.(imageKernelUrlHttps := kernel);
      row := row.(imageRootFsUrlHttps := rootFs);
      ic, err := Some(Dto(row)), presignErr;
    }
  }
}

=== FILE: payloads.dfy ===
/**
 * The payloads service (pkg/payloads/payloads.go): each operation checks its
 * argument and hands it to the store unchanged.
 */
module Payloads {
  import opened Wrappers
  import opened Errors
  import opened Records
  import opened Postgres

  /** The service: its store and the process-wide default payload main.go configures. */
  datatype Service = Service(db: DB, defaultPayloadId: string, defaultPayloadDirectory: string)
  {
    /** payloads.go:46-51: an empty mac is refused; any other goes to the store as it is. */
    function GetNodePayload(macAddress: string, fault: Option<Error>): (r: Result<Option<NodePayload>, Error>)
      reads db
      ensures macAddress == "" ==> r == Err(Validation("missing payload macAddress"))
      ensures macAddress != "" ==> r == db.GetNodePayload(macAddress, fault)
    {
      if macAddress == "" then Err(Validation("missing payload macAddress"))
      else db.GetNodePayload(macAddress, fault)
    }

    /** payloads.go:54-59: an empty payload id is refused; any other goes to the store as it is. */
    function GetPayloadParameters(payloadId: string): (r: Result<Option<string>, Error>)
      reads db
      ensures payloadId == "" ==> r == Err(Validation("missing payloadId"))
      ensures payloadId != "" ==> r == db.GetPayloadParameters(payloadId)
    {
      if payloadId == "" then Err(Validation("missing payloadId"))
      else db.GetPayloadParameters(payloadId)
    }

    /** The global default payload: the id and directory the service was configured with. */
    function GetDefaultPayload(): (r: Payload)
      ensures r.payloadId == defaultPayloadId && r.payloadDirectory == defaultPayloadDirectory
    {
      Payload(defaultPayloadId, defaultPayloadDirectory)
    }
  }
}

=== FILE: postgres.dfy ===
/**
 * The Postgres layer (pkg/postgres/postgres.go): the tables as in-memory
 * sequences of rows, the queries as functions over them, and the inserts and
 * updates as methods of the class DB that owns the tables.
 *
 * Driver failures are inputs: every query or statement takes `fault`, the
 * error the driver returned (None when it returned none). The uniqueness
 * violations (SQLSTATE 23505) of the inserts are not inputs: the model raises
 * them itself when the key being inserted is already in the table.
 */
module Postgres {
  import opened Wrappers
  import opened Errors
  import opened Text
  import opened Records

  /** A row of subnet_default_payloads. */
  datatype SubnetPayloadRow = SubnetPayloadRow(subnet: string, payloadId: string)

  /** A row of subnet_default_images. */
  datatype SubnetImageRow = SubnetImageRow(subnet: string, imageTag: string, imageType: string)

  // ---------------------------------------------------------------------
  // Result sets: the first row a query yields, in table order
  // ---------------------------------------------------------------------

  /** The first value `f` yields along `s`: the first row of a result set. */
  function FirstSome<T, U>(s: seq<T>, f: T -> Option<U>): (r: Option<U>)
    ensures r.None? <==> forall i :: 0 <= i < |s| ==> f(s[i]).None?
    ensures forall i :: 0 <= i < |s| && f(s[i]).Some? && (forall j :: 0 <= j < i ==> f(s[j]).None?) ==> r == f(s[i])
    ensures r.Some? ==> exists i :: 0 <= i < |s| && r == f(s[i])
  {
    if s == [] then None
    else if f(s[0]).Some? then f(s[0])
    else
      var r := FirstSome(s[1..], f);
      assert forall i :: 1 <= i < |s| ==> s[i] == s[1..][i - 1];
      r
  }

  /** A row appended at the end is reached only when no earlier row yields anything. */
  lemma FirstSomeAppend<T, U>(s: seq<T>, x: T, f: T -> Option<U>)
    ensures FirstSome(s + [x], f) == if FirstSome(s, f).Some? then FirstSome(s, f) else f(x)
  {
    var t := s + [x];
    if FirstSome(s, f).Some? {
      var i :| 0 <= i < |s| && f(s[i]).Some?;
      LeastYieldingRow(s, f, i);
      var k :| 0 <= k <= i && f(s[k]).Some? && forall j :: 0 <= j < k ==> f(s[j]).None?;
      assert t[k] == s[k];
      forall j | 0 <= j < k ensures f(t[j]).None? {
        assert t[j] == s[j];
      }
      assert FirstSome(t, f) == f(s[k]) == FirstSome(s, f);
    } else {
      forall j | 0 <= j < |s| ensures f(t[j]).None? {
        assert t[j] == s[j];
      }
      assert t[|s|] == x;
    }
  }

  /** Below any yielding row there is a least one. */
  lemma {:induction false} LeastYieldingRow<T, U>(s: seq<T>, f: T -> Option<U>, i: nat)
    requires i < |s| && f(s[i]).Some?
    ensures exists k :: 0 <= k <= i && f(s[k]).Some? && forall j :: 0 <= j < k ==> f(s[j]).None?
    decreases i
  {
    if !forall j :: 0 <= j < i ==> f(s[j]).None? {
      var j :| 0 <= j < i && f(s[j]).Some?;
      LeastYieldingRow(s, f, j);
    }
  }

  // ---------------------------------------------------------------------
  // The joins the queries perform
  // ---------------------------------------------------------------------

  /** The payloads catalog entry a payload_id joins with. */
  function PayloadById(catalog: seq<Payload>, id: string): (r: Option<Payload>)
    ensures r.Some? ==> r.value.payloadId == id && r.value in catalog
    ensures r.None? <==> forall i :: 0 <= i < |catalog| ==> catalog[i].payloadId != id
  {
    FirstSome(catalog, (p: Payload) => if p.payloadId == id then Some(p) else None)
  }

  /** The images catalog entry an (image_tag, image_type) pair joins with. */
  function ImageByKey(images: seq<IpxeDbConfig>, tag: string, typ: string): (r: Option<IpxeDbConfig>)
    ensures r.Some? ==> r.value.imageTag == tag && r.value.imageType == typ && r.value in images
    ensures r.None? <==> !ImageKeyTaken(images, tag, typ)
  {
    FirstSome(images, (i: IpxeDbConfig) => if i.imageTag == tag && i.imageType == typ then Some(i) else None)
  }

  /** What one node_payloads row contributes to `... JOIN payloads ... WHERE mac_address LIKE pattern`. */
  function JoinedNodePayload(catalog: seq<Payload>, pattern: string, row: NodePayloadDb): Option<NodePayload> {
    if !Like(row.macAddress, pattern) then None
    else match PayloadById(catalog, row.payloadId)
      case None => None
      case Some(p) => Some(NodePayload(p.payloadId, p.payloadDirectory, row.macAddress))
  }

  /** The first row of the node payload query (postgres.go:101-108). */
  function LookupNodePayload(rows: seq<NodePayloadDb>, catalog: seq<Payload>, pattern: string): (r: Option<NodePayload>)
    ensures r.Some? ==> Like(r.value.macAddress, pattern) && AnyPayloadRowLike(rows, pattern)
    ensures r.Some? ==> PayloadById(catalog, r.value.payloadId) == Some(Payload(r.value.payloadId, r.value.payloadDirectory))
    ensures !AnyPayloadRowLike(rows, pattern) ==> r.None?
  {
    var f := (row: NodePayloadDb) => JoinedNodePayload(catalog, pattern, row);
    var r := FirstSome(rows, f);
    if r.None? then r
    else
      var i :| 0 <= i < |rows| && r == f(rows[i]);
      assert r == JoinedNodePayload(catalog, pattern, rows[i]);
      assert Like(rows[i].macAddress, pattern);
      r
  }

  /**
   * The node payload query yields nothing iff no row LIKE the key joins the
   * catalog, and otherwise the join of the first row that does, whatever
   * wildcards the key holds.
   */
  lemma LookupNodePayloadFirst(rows: seq<NodePayloadDb>, catalog: seq<Payload>, pattern: string)
    ensures LookupNodePayload(rows, catalog, pattern).None? <==>
      forall i :: 0 <= i < |rows| ==> JoinedNodePayload(catalog, pattern, rows[i]).None?
    ensures forall i ::
      (0 <= i < |rows| && JoinedNodePayload(catalog, pattern, rows[i]).Some? && forall j :: 0 <= j < i ==> JoinedNodePayload(catalog, pattern, rows[j]).None?) ==>
        LookupNodePayload(rows, catalog, pattern) == JoinedNodePayload(catalog, pattern, rows[i])
  {
  }

  /** What one subnet_default_payloads row contributes: the catalog entry of its id when its subnet contains `ip`. */
  function SubnetPayloadOf(catalog: seq<Payload>, inSubnet: (string, string) -> bool, ip: string, row: SubnetPayloadRow): Option<Payload> {
    if inSubnet(row.subnet, ip) then PayloadById(catalog, row.payloadId) else None
  }

  /** The first row of the subnet default payload query (postgres.go:136-143). */
  function LookupSubnetPayload(rows: seq<SubnetPayloadRow>, catalog: seq<Payload>,
                               inSubnet: (string, string) -> bool, ip: string): (r: Option<Payload>)
    ensures r.Some? ==> PayloadById(catalog, r.value.payloadId) == r
    ensures r.None? <==> forall i :: 0 <= i < |rows| ==> SubnetPayloadOf(catalog, inSubnet, ip, rows[i]).None?
    ensures r.Some? ==> exists i :: 0 <= i < |rows| && inSubnet(rows[i].subnet, ip) && r == PayloadById(catalog, rows[i].payloadId)
    ensures forall i ::
      (0 <= i < |rows| && SubnetPayloadOf(catalog, inSubnet, ip, rows[i]).Some? && forall j :: 0 <= j < i ==> SubnetPayloadOf(catalog, inSubnet, ip, rows[j]).None?) ==>
        r == SubnetPayloadOf(catalog, inSubnet, ip, rows[i])
  {
    var f := (row: SubnetPayloadRow) => SubnetPayloadOf(catalog, inSubnet, ip, row);
    var r := FirstSome(rows, f);
    if r.None? then r
    else
      var i :| 0 <= i < |rows| && r == f(rows[i]);
      assert inSubnet(rows[i].subnet, ip) && r == PayloadById(catalog, rows[i].payloadId);
      r
  }

  /** What one node_images row contributes: the images entry of its (tag, type) when its mac_address is LIKE the pattern. */
  function NodeImageOf(images: seq<IpxeDbConfig>, pattern: string, row: IpxeNodeDbConfig): Option<IpxeDbConfig> {
    if Like(row.macAddress, pattern) then ImageByKey(images, row.imageTag, row.imageType) else None
  }

  /** The first row of the joined node image query (postgres.go:400-414). */
  function LookupNodeImage(rows: seq<IpxeNodeDbConfig>, images: seq<IpxeDbConfig>, pattern: string): (r: Option<IpxeDbConfig>)
    ensures r.Some? ==> AnyImageRowLike(rows, pattern)
    ensures r.Some? ==> ImageByKey(images, r.value.imageTag, r.value.imageType) == r
    ensures !AnyImageRowLike(rows, pattern) ==> r.None?
    ensures r.None? <==> forall i :: 0 <= i < |rows| ==> NodeImageOf(images, pattern, rows[i]).None?
    ensures r.Some? ==>
      exists i :: 0 <= i < |rows| && Like(rows[i].macAddress, pattern) && r == ImageByKey(images, rows[i].imageTag, rows[i].imageType)
    ensures forall i ::
      (0 <= i < |rows| && NodeImageOf(images, pattern, rows[i]).Some? && forall j :: 0 <= j < i ==> NodeImageOf(images, pattern, rows[j]).None?) ==>
        r == NodeImageOf(images, pattern, rows[i])
  {
    var f := (row: IpxeNodeDbConfig) => NodeImageOf(images, pattern, row);
    var r := FirstSome(rows, f);
    if r.None? then r
    else
      var i :| 0 <= i < |rows| && r == f(rows[i]);
      assert Like(rows[i].macAddress, pattern) && r == ImageByKey(images, rows[i].imageTag, rows[i].imageType);
      r
  }

  /** What one subnet_default_images row contributes: the images entry of its (tag, type) when its subnet contains `ip`. */
  function SubnetImageOf(images: seq<IpxeDbConfig>, inSubnet: (string, string) -> bool, ip: string, row: SubnetImageRow): Option<IpxeDbConfig> {
    if inSubnet(row.subnet, ip) then ImageByKey(images, row.imageTag, row.imageType) else None
  }

  /** The first row of the subnet default image query (postgres.go:442-457). */
  function LookupSubnetImage(rows: seq<SubnetImageRow>, images: seq<IpxeDbConfig>,
                             inSubnet: (string, string) -> bool, ip: string): (r: Option<IpxeDbConfig>)
    ensures r.Some? ==> ImageByKey(images, r.value.imageTag, r.value.imageType) == r
    ensures r.None? <==> forall i :: 0 <= i < |rows| ==> SubnetImageOf(images, inSubnet, ip, rows[i]).None?
    ensures r.Some? ==>
      exists i :: 0 <= i < |rows| && inSubnet(rows[i].subnet, ip) && r == ImageByKey(images, rows[i].imageTag, rows[i].imageType)
    ensures forall i ::
      (0 <= i < |rows| && SubnetImageOf(images, inSubnet, ip, rows[i]).Some? && forall j :: 0 <= j < i ==> SubnetImageOf(images, inSubnet, ip, rows[j]).None?) ==>
        r == SubnetImageOf(images, inSubnet, ip, rows[i])
  {
    var f := (row: SubnetImageRow) => SubnetImageOf(images, inSubnet, ip, row);
    var r := FirstSome(rows, f);
    if r.None? then r
    else
      var i :| 0 <= i < |rows| && r == f(rows[i]);
      assert inSubnet(rows[i].subnet, ip) && r == ImageByKey(images, rows[i].imageTag, rows[i].imageType);
      r
  }

  predicate AnyPayloadRowLike(rows: seq<NodePayloadDb>, pattern: string) {
    exists i :: 0 <= i < |rows| && Like(rows[i].macAddress, pattern)
  }

  predicate AnyImageRowLike(rows: seq<IpxeNodeDbConfig>, pattern: string) {
    exists i :: 0 <= i < |rows| && Like(rows[i].macAddress, pattern)
  }

  // ---------------------------------------------------------------------
  // What the two identity forms select
  // ---------------------------------------------------------------------

  predicate EndsWith(s: string, q: string) {
    |q| <= |s| && s[|s| - |q|..] == q
  }

  /** A wildcard-free key selects the rows whose mac_address is exactly that key. */
  lemma LikeLiteralRows(rows: seq<NodePayloadDb>, key: string)
    requires Literal(key)
    ensures forall i :: 0 <= i < |rows| ==> (Like(rows[i].macAddress, key) <==> rows[i].macAddress == key)
  {
    forall i | 0 <= i < |rows| ensures Like(rows[i].macAddress, key) <==> rows[i].macAddress == key {
      LikeLiteral(rows[i].macAddress, key);
    }
  }

  /** Exact form: with mac_address unique, a full key finds its own row and only that one. */
  lemma ExactKeyLookup(rows: seq<NodePayloadDb>, catalog: seq<Payload>, key: string, i: nat)
    requires Literal(key)
    requires UniqueMacs(rows)
    requires i < |rows| && rows[i].macAddress == key
    ensures LookupNodePayload(rows, catalog, key) ==
      match PayloadById(catalog, rows[i].payloadId)
      case None => None
      case Some(p) => Some(NodePayload(p.payloadId, p.payloadDirectory, key))
  {
    LikeLiteralRows(rows, key);
    var f := (row: NodePayloadDb) => JoinedNodePayload(catalog, key, row);
    assert forall j :: 0 <= j < |rows| && j != i ==> f(rows[j]).None?;
  }

  /** Exact form: a full key that no row carries finds nothing. */
  lemma ExactKeyMiss(rows: seq<NodePayloadDb>, catalog: seq<Payload>, key: string)
    requires Literal(key)
    requires forall i :: 0 <= i < |rows| ==> rows[i].macAddress != key
    ensures LookupNodePayload(rows, catalog, key) == None
  {
    LikeLiteralRows(rows, key);
  }

  /** Hostname form: `%` + six characters finds the first joinable row whose mac_address ends with them. */
  lemma SuffixKeyLookup(rows: seq<NodePayloadDb>, catalog: seq<Payload>, tail: string, i: nat)
    requires Literal(tail)
    requires i < |rows| && EndsWith(rows[i].macAddress, tail) && PayloadById(catalog, rows[i].payloadId).Some?
    requires forall j :: 0 <= j < i && EndsWith(rows[j].macAddress, tail) ==> PayloadById(catalog, rows[j].payloadId).None?
    ensures LookupNodePayload(rows, catalog, "%" + tail) ==
      Some(NodePayload(rows[i].payloadId, PayloadById(catalog, rows[i].payloadId).value.payloadDirectory, rows[i].macAddress))
  {
    var f := (row: NodePayloadDb) => JoinedNodePayload(catalog, "%" + tail, row);
    LikeSuffix(rows[i].macAddress, tail);
    assert f(rows[i]) == Some(NodePayload(rows[i].payloadId, PayloadById(catalog, rows[i].payloadId).value.payloadDirectory, rows[i].macAddress));
    SuffixRowsBefore(rows, catalog, tail, i);
    assert forall j :: 0 <= j < i ==> f(rows[j]).None?;
  }

  /** Rows before `i` that end with the text join with nothing, so the hostname pattern yields nothing there. */
  lemma SuffixRowsBefore(rows: seq<NodePayloadDb>, catalog: seq<Payload>, tail: string, i: nat)
    requires Literal(tail) && i <= |rows|
    requires forall j :: 0 <= j < i && EndsWith(rows[j].macAddress, tail) ==> PayloadById(catalog, rows[j].payloadId).None?
    ensures forall j :: 0 <= j < i ==> JoinedNodePayload(catalog, "%" + tail, rows[j]).None?
  {
    forall j | 0 <= j < i ensures JoinedNodePayload(catalog, "%" + tail, rows[j]).None? {
      LikeSuffix(rows[j].macAddress, tail);
    }
  }

  /**
   * A row recorded for a device that had none is what the next lookup of that
   * device finds, provided its payload id joins with the catalog entry `p`.
   */
  lemma RecordedRowFound(rows: seq<NodePayloadDb>, catalog: seq<Payload>, key: string, p: Payload)
    requires Literal(key) && !MacTaken(rows, key)
    requires PayloadById(catalog, p.payloadId) == Some(p)
    ensures LookupNodePayload(rows + [NodePayloadDb(p.payloadId, key)], catalog, key) ==
      Some(NodePayload(p.payloadId, p.payloadDirectory, key))
  {
    var f := (row: NodePayloadDb) => JoinedNodePayload(catalog, key, row);
    ExactKeyMiss(rows, catalog, key);
    FirstSomeAppend(rows, NodePayloadDb(p.payloadId, key), f);
    LikeLiteral(key, key);
  }

  /**
   * A row recorded with a payload id the catalog lacks joins with nothing: the
   * next lookup of that device still finds no payload.
   */
  lemma RecordedOrphanMissed(rows: seq<NodePayloadDb>, catalog: seq<Payload>, key: string, id: string)
    requires Literal(key) && !MacTaken(rows, key)
    requires PayloadById(catalog, id).None?
    ensures LookupNodePayload(rows + [NodePayloadDb(id, key)], catalog, key) == None
  {
    var f := (row: NodePayloadDb) => JoinedNodePayload(catalog, key, row);
    ExactKeyMiss(rows, catalog, key);
    FirstSomeAppend(rows, NodePayloadDb(id, key), f);
  }

  /** Under a full mac address no node_images row is selected until one carries exactly that address. */
  lemma ImageRowsMiss(rows: seq<IpxeNodeDbConfig>, key: string)
    requires Literal(key) && !ImageMacTaken(rows, key)
    ensures !AnyImageRowLike(rows, key)
  {
    forall i | 0 <= i < |rows| ensures !Like(rows[i].macAddress, key) {
      LikeLiteral(rows[i].macAddress, key);
    }
  }

  /**
   * The node_images row recorded for a new device selects the image of its
   * (tag, type): the next lookup of that device finds that image.
   */
  lemma RecordedImageFound(rows: seq<IpxeNodeDbConfig>, images: seq<IpxeDbConfig>, key: string, idc: IpxeDbConfig)
    requires Literal(key) && !ImageMacTaken(rows, key)
    requires ImageByKey(images, idc.imageTag, idc.imageType) == Some(idc)
    ensures AnyImageRowLike(rows + [IpxeNodeDbConfig(idc.imageTag, idc.imageType, key)], key)
    ensures LookupNodeImage(rows + [IpxeNodeDbConfig(idc.imageTag, idc.imageType, key)], images, key) == Some(idc)
  {
    var added := IpxeNodeDbConfig(idc.imageTag, idc.imageType, key);
    var f := (row: IpxeNodeDbConfig) => NodeImageOf(images, key, row);
    ImageRowsMiss(rows, key);
    LikeLiteral(key, key);
    FirstSomeAppend(rows, added, f);
    assert (rows + [added])[|rows|] == added;
  }

  // ---------------------------------------------------------------------
  // Driver error classification
  // ---------------------------------------------------------------------

  /** pgErrorCode: the SQLSTATE of a Postgres error, nothing for any other error. */
  function PgErrorCode(e: Error): (r: Option<string>)
    ensures r.Some? <==> e.PgError?
    ensures e.PgError? ==> r.value == e.code
  {
    if e.PgError? then Some(e.code) else None
  }

  /** The CHECK constraints of the images table whose violation createIpxeImagePgError names. */
  const ImageCheckConstraints: seq<string> := ["image_bucket", "image_name", "image_tag", "image_type", "image_cmdline"]

  /** createIpxeImagePgError: a caller-facing message for the Postgres errors an image insert expects. */
  function CreateIpxeImagePgError(e: Error): (r: Option<Error>)
    ensures r.Some? <==> e.PgError? && (e.code == UniqueViolation || (e.code == CheckViolation && e.constraint in ImageCheckConstraints))
    ensures e.PgError? && e.code == UniqueViolation ==> r == Some(Message("UniqueViolation - (image_tag, image_type) exists"))
    ensures e.PgError? && e.code == CheckViolation && e.constraint in ImageCheckConstraints ==> r == Some(Message("invalid " + e.constraint))
  {
    match e
    case PgError(code, constraint, _) =>
      if code == UniqueViolation then Some(Message("UniqueViolation - (image_tag, image_type) exists"))
      else if code == CheckViolation then
        (match constraint
         case "image_bucket" => assert "invalid " + constraint == "invalid image_bucket"; Some(Message("invalid image_bucket"))
         case "image_name" => assert "invalid " + constraint == "invalid image_name"; Some(Message("invalid image_name"))
         case "image_tag" => assert "invalid " + constraint == "invalid image_tag"; Some(Message("invalid image_tag"))
         case "image_type" => assert "invalid " + constraint == "invalid image_type"; Some(Message("invalid image_type"))
         case "image_cmdline" => assert "invalid " + constraint == "invalid image_cmdline"; Some(Message("invalid image_cmdline"))
         case _ => None)
      else None
    case _ => None
  }

  /** How a read query reports a driver error: context errors as they are, ErrNoRows as `onNoRows`, the rest as the message `hidden`. */
  function QueryFailure<T>(e: Error, onNoRows: Result<T, Error>, hidden: string): Result<T, Error> {
    if IsContextError(e) then Err(e)
    else if e == NoRows then onNoRows
    else Err(Message(hidden))
  }

  /** How AddNodePayload and CreateNodeIpxeConfig report an insert error. */
  function InsertFailure(e: Error, alreadyExists: string): (r: Error)
    ensures IsContextError(e) ==> r == e
    ensures PgErrorCode(e) == Some(UniqueViolation) ==> r == Message(alreadyExists)
    ensures !IsContextError(e) && PgErrorCode(e) != Some(UniqueViolation) ==> r == e
  {
    if IsContextError(e) then e
    else if PgErrorCode(e) == Some(UniqueViolation) then Message(alreadyExists)
    else e
  }

  /** How createIpxeImage reports a driver error: context errors as they are, every other as a message. */
  function ImageInsertFailure(e: Error): (r: Error)
    ensures IsContextError(r) <==> IsContextError(e)
    ensures !IsContextError(e) ==> r.Message?
    ensures IsContextError(e) ==> r == e
    ensures e == DuplicateKey(ImagesTagTypeKey) ==> r == Message("UniqueViolation - (image_tag, image_type) exists")
  {
    if IsContextError(e) then e
    else match CreateIpxeImagePgError(e)
      case Some(known) => known
      case None => Message("cannot create image")
  }

  /** How updateNodePayload reports a driver error: context errors as they are, every other as a message naming `config`. */
  function PayloadUpdateFailure(e: Error, config: NodePayloadDb): (r: Error)
    ensures IsContextError(r) <==> IsContextError(e)
    ensures !IsContextError(e) ==> r.Message? && (r.msg == NodePayloadExists(config) <==> PgErrorCode(e) == Some(UniqueViolation))
    ensures IsContextError(e) ==> r == e
  {
    if IsContextError(e) then e
    else if PgErrorCode(e) == Some(UniqueViolation) then Message(NodePayloadExists(config))
    else Message("cannot update payload for config: " + ShowNodePayloadDb(config))
  }

  /** The error Postgres raises for an insert whose key is already present. */
  function DuplicateKey(constraint: string): Error {
    PgError(UniqueViolation, constraint, "duplicate key value violates unique constraint \"" + constraint + "\"")
  }

  /** The error the driver reports for an insert: the injected one, else a clash on the unique key. */
  function InsertDriverError(fault: Option<Error>, clash: bool, constraint: string): Option<Error> {
    if fault.Some? then fault
    else if clash then Some(DuplicateKey(constraint))
    else None
  }

  /** fmt's %v of a NodePayloadDb value. */
  function ShowNodePayloadDb(c: NodePayloadDb): string {
    "{" + c.payloadId + " " + c.macAddress + "}"
  }

  /** fmt's %v of an IpxeNodeDbConfig value. */
  function ShowIpxeNodeDbConfig(c: IpxeNodeDbConfig): string {
    "{" + c.imageTag + " " + c.imageType + " " + c.macAddress + "}"
  }

  function NodePayloadExists(c: NodePayloadDb): string {
    "node_payloads entry already exists for macAddress: " + c.macAddress + " - payloadId: " + c.payloadId
  }

  function NodeImageExists(c: IpxeNodeDbConfig): string {
    "node_images entry already exists for macAddress: " + c.macAddress
  }

  // ---------------------------------------------------------------------
  // Table constraints
  // ---------------------------------------------------------------------

  predicate UniqueMacs(rows: seq<NodePayloadDb>) {
    forall i, j :: 0 <= i < j < |rows| ==> rows[i].macAddress != rows[j].macAddress
  }

  predicate UniqueImageMacs(rows: seq<IpxeNodeDbConfig>) {
    forall i, j :: 0 <= i < j < |rows| ==> rows[i].macAddress != rows[j].macAddress
  }

  predicate UniqueImageKeys(rows: seq<IpxeDbConfig>) {
    forall i, j :: 0 <= i < j < |rows| ==>
      (rows[i].imageTag, rows[i].imageType) != (rows[j].imageTag, rows[j].imageType)
  }

  predicate MacTaken(rows: seq<NodePayloadDb>, mac: string) {
    exists i :: 0 <= i < |rows| && rows[i].macAddress == mac
  }

  predicate ImageMacTaken(rows: seq<IpxeNodeDbConfig>, mac: string) {
    exists i :: 0 <= i < |rows| && rows[i].macAddress == mac
  }

  predicate ImageKeyTaken(rows: seq<IpxeDbConfig>, tag: string, typ: string) {
    exists i :: 0 <= i < |rows| && rows[i].imageTag == tag && rows[i].imageType == typ
  }

  /** Names Postgres gives the unique constraints by default; only their code is ever inspected. */
  const NodePayloadsMacKey: string := "node_payloads_mac_address_key"
  const NodeImagesMacKey: string := "node_images_mac_address_key"
  const ImagesTagTypeKey: string := "images_image_tag_image_type_key"

  // ---------------------------------------------------------------------
  // The store
  // ---------------------------------------------------------------------

  /** Every row of `rows` whose mac_address is LIKE `pattern` carries `id`; the others are untouched. */
  function ReassignPayload(rows: seq<NodePayloadDb>, pattern: string, id: string): (r: seq<NodePayloadDb>)
    ensures |r| == |rows|
    ensures forall i :: 0 <= i < |rows| ==> r[i].macAddress == rows[i].macAddress
    ensures forall i :: 0 <= i < |rows| ==> r[i].payloadId == if Like(rows[i].macAddress, pattern) then id else rows[i].payloadId
  {
    seq(|rows|, i requires 0 <= i < |rows| =>
      if Like(rows[i].macAddress, pattern) then rows[i].(payloadId := id) else rows[i])
  }

  /** Every row of `rows` whose mac_address is LIKE `pattern` carries (tag, typ); the others are untouched. */
  function ReassignImage(rows: seq<IpxeNodeDbConfig>, pattern: string, tag: string, typ: string): (r: seq<IpxeNodeDbConfig>)
    ensures |r| == |rows|
    ensures forall i :: 0 <= i < |rows| ==> r[i].macAddress == rows[i].macAddress
    ensures forall i :: 0 <= i < |rows| ==>
      (r[i].imageTag, r[i].imageType) ==
        (if Like(rows[i].macAddress, pattern) then (tag, typ) else (rows[i].imageTag, rows[i].imageType))
  {
    seq(|rows|, i requires 0 <= i < |rows| =>
      if Like(rows[i].macAddress, pattern) then rows[i].(imageTag := tag, imageType := typ) else rows[i])
  }

  /** With a wildcard-free key, a reassignment touches the row carrying exactly that mac_address and no other. */
  lemma ReassignExact(rows: seq<NodePayloadDb>, key: string, id: string)
    requires Literal(key)
    ensures forall i :: 0 <= i < |rows| ==>
      ReassignPayload(rows, key, id)[i] == if rows[i].macAddress == key then NodePayloadDb(id, key) else rows[i]
  {
    LikeLiteralRows(rows, key);
  }

  /** The payload ids of a catalog, in row order. */
  function PayloadIds(catalog: seq<Payload>): (ids: seq<string>)
    ensures |ids| == |catalog|
    ensures forall i :: 0 <= i < |catalog| ==> ids[i] == catalog[i].payloadId
  {
    seq(|catalog|, i requires 0 <= i < |catalog| => catalog[i].payloadId)
  }

  /** The (image_tag, image_type) of one images row. */
  function TagType(idc: IpxeDbConfig): IpxeImageTagType {
    IpxeImageTagType(idc.imageTag, idc.imageType)
  }

  /** The database behind one service: its tables, in row order. */
  class DB {
    var payloads: seq<Payload>
    var nodePayloads: seq<NodePayloadDb>
    var subnetDefaultPayloads: seq<SubnetPayloadRow>
    var images: seq<IpxeDbConfig>
    var nodeImages: seq<IpxeNodeDbConfig>
    var subnetDefaultImages: seq<SubnetImageRow>
    /** Postgres's `subnet >> address`: the CIDR block strictly contains the address. */
    const inSubnet: (string, string) -> bool
    /** The JSONB aggregation behind GetPayloadParameters, which the model leaves abstract. */
    const payloadParameters: string -> Result<Option<string>, Error>

    /** The unique constraints the inserts rely on. */
    ghost predicate Valid()
      reads this
    {
      UniqueMacs(nodePayloads) && UniqueImageMacs(nodeImages) && UniqueImageKeys(images)
    }

    ghost function PayloadTables(): (seq<Payload>, seq<NodePayloadDb>, seq<SubnetPayloadRow>)
      reads this
    {
      (payloads, nodePayloads, subnetDefaultPayloads)
    }

    ghost function ImageTables(): (seq<IpxeDbConfig>, seq<IpxeNodeDbConfig>, seq<SubnetImageRow>)
      reads this
    {
      (images, nodeImages, subnetDefaultImages)
    }

    constructor (inSubnet: (string, string) -> bool, payloadParameters: string -> Result<Option<string>, Error>)
      ensures Valid()
      ensures PayloadTables() == ([], [], []) && ImageTables() == ([], [], [])
      ensures this.inSubnet == inSubnet && this.payloadParameters == payloadParameters
    {
      this.inSubnet := inSubnet;
      this.payloadParameters := payloadParameters;
      payloads, nodePayloads, subnetDefaultPayloads := [], [], [];
      images, nodeImages, subnetDefaultImages := [], [], [];
    }

    /** postgres.go:99-129: the first node payload whose mac_address is LIKE the key. */
    function GetNodePayload(macAddress: string, fault: Option<Error>): (r: Result<Option<NodePayload>, Error>)
      reads this
      ensures fault.Some? && IsContextError(fault.value) ==> r == Err(fault.value)
      ensures fault == Some(NoRows) ==> r == Ok(None)
      ensures fault.Some? && !IsContextError(fault.value) && fault.value != NoRows ==>
        r == Err(Message("cannot get node_payload from database"))
      ensures fault.None? ==> r == Ok(LookupNodePayload(nodePayloads, payloads, macAddress))
    {
      match fault
      case Some(e) => QueryFailure(e, Ok(None), "cannot get node_payload from database")
      case None => Ok(LookupNodePayload(nodePayloads, payloads, macAddress))
    }

    /** postgres.go:134-163: the payload of the first subnet that contains the address. */
    function GetSubnetDefaultPayload(ipAddress: string, fault: Option<Error>): (r: Result<Option<Payload>, Error>)
      reads this
      ensures fault.Some? && IsContextError(fault.value) ==> r == Err(fault.value)
      ensures fault == Some(NoRows) ==> r == Ok(None)
      ensures fault.Some? && !IsContextError(fault.value) && fault.value != NoRows ==>
        r == Err(Message("cannot get default payload for subnet from database"))
      ensures fault.None? ==> r == Ok(LookupSubnetPayload(subnetDefaultPayloads, payloads, inSubnet, ipAddress))
    {
      match fault
      case Some(e) => QueryFailure(e, Ok(None), "cannot get default payload for subnet from database")
      case None => Ok(LookupSubnetPayload(subnetDefaultPayloads, payloads, inSubnet, ipAddress))
    }

    /** postgres.go:195-221: every payload id of the catalog, in row order; empty on any error. */
    function GetAvailablePayloads(fault: Option<Error>): (ids: seq<string>)
      reads this
      ensures fault.Some? ==> ids == []
      ensures fault.None? ==> |ids| == |payloads| && forall i :: 0 <= i < |payloads| ==> ids[i] == payloads[i].payloadId
      ensures fault.None? ==> forall id :: id in ids <==> exists i :: 0 <= i < |payloads| && payloads[i].payloadId == id
    {
      if fault.Some? then [] else PayloadIds(payloads)
    }

    /** postgres.go:306-337: one (image_tag, image_type) per images row, in row order. */
    method GetAvailableImages(fault: Option<Error>) returns (available: seq<IpxeImageTagType>)
      ensures fault.Some? ==> available == []
      ensures fault.None? ==> |available| == |images|
      ensures fault.None? ==> forall i :: 0 <= i < |images| ==>
        available[i] == IpxeImageTagType(images[i].imageTag, images[i].imageType)
    {
      available := [];
      if fault.Some? {
        return;
      }
      var k := 0;
      while k < |images|
        invariant 0 <= k <= |images|
        invariant |available| == k
        invariant forall i :: 0 <= i < k ==> available[i] == TagType(images[i])
      {
        available := available + [TagType(images[k])];
        k := k + 1;
      }
    }

    /** postgres.go:369-435: the image of the first node_images row LIKE the key, in two queries. */
    function GetIpxeDbConfig(macAddress: string, nodeImagesFault: Option<Error>, imagesFault: Option<Error>): (r: Result<IpxeDbConfig, Error>)
      reads this
      ensures nodeImagesFault.Some? && IsContextError(nodeImagesFault.value) ==> r == Err(nodeImagesFault.value)
      ensures nodeImagesFault == Some(NoRows) ==> r == Err(NoRows)
      ensures nodeImagesFault.Some? && !IsContextError(nodeImagesFault.value) && nodeImagesFault.value != NoRows ==>
        r == Err(Message("cannot get image_tag and image_type from database"))
      ensures nodeImagesFault.None? && !AnyImageRowLike(nodeImages, macAddress) ==>
        r == Err(Message("no image_tag and image_type found in database"))
      ensures nodeImagesFault.None? && AnyImageRowLike(nodeImages, macAddress) && imagesFault.Some? ==>
        r == QueryFailure(imagesFault.value, Err(NoRows), "cannot get ipxe from database")
      ensures nodeImagesFault.None? && AnyImageRowLike(nodeImages, macAddress) && imagesFault.None? ==>
        r == match LookupNodeImage(nodeImages, images, macAddress)
             case None => Err(Message("no image found in database"))
             case Some(idc) => Ok(idc)
    {
      if nodeImagesFault.Some? then
        QueryFailure(nodeImagesFault.value, Err(NoRows), "cannot get image_tag and image_type from database")
      else if !AnyImageRowLike(nodeImages, macAddress) then
        Err(Message("no image_tag and image_type found in database"))
      else if imagesFault.Some? then
        QueryFailure(imagesFault.value, Err(NoRows), "cannot get ipxe from database")
      else match LookupNodeImage(nodeImages, images, macAddress)
        case None => Err(Message("no image found in database"))
        case Some(idc) => Ok(idc)
    }

    /** postgres.go:439-476: the image of the first subnet that contains the address; none is an error. */
    function GetSubnetDefaultIpxeDbConfig(ipAddress: string, fault: Option<Error>): (r: Result<IpxeDbConfig, Error>)
      reads this
      ensures fault.Some? && IsContextError(fault.value) ==> r == Err(fault.value)
      ensures fault == Some(NoRows) ==> r == Err(NoRows)
      ensures fault.Some? && !IsContextError(fault.value) && fault.value != NoRows ==>
        r == Err(Message("cannot get ipxe from database"))
      ensures fault.None? ==>
        r == match LookupSubnetImage(subnetDefaultImages, images, inSubnet, ipAddress)
             case None => Err(Message("no image found in database"))
             case Some(idc) => Ok(idc)
    {
      if fault.Some? then QueryFailure(fault.value, Err(NoRows), "cannot get ipxe from database")
      else match LookupSubnetImage(subnetDefaultImages, images, inSubnet, ipAddress)
        case None => Err(Message("no image found in database"))
        case Some(idc) => Ok(idc)
    }

    /** postgres.go:262-303, whose aggregation is abstract here. */
    function GetPayloadParameters(payloadId: string): Result<Option<string>, Error> {
      payloadParameters(payloadId)
    }

    /** postgres.go:165-192: insert a node_payloads row; a row with the same mac_address makes it fail. */
    method AddNodePayload(npd: NodePayloadDb, fault: Option<Error>) returns (err: Option<Error>)
      requires Valid()
      modifies this
      ensures Valid()
      ensures err.None? <==> fault.None? && !old(MacTaken(nodePayloads, npd.macAddress))
      ensures fault.None? && old(MacTaken(nodePayloads, npd.macAddress)) ==> err == Some(Message(NodePayloadExists(npd)))
      ensures fault.Some? ==> err == Some(InsertFailure(fault.value, NodePayloadExists(npd)))
      ensures nodePayloads == if err.None? then old(nodePayloads) + [npd] else old(nodePayloads)
      ensures payloads == old(payloads) && subnetDefaultPayloads == old(subnetDefaultPayloads)
      ensures ImageTables() == old(ImageTables())
    {
      var driverErr := InsertDriverError(fault, MacTaken(nodePayloads, npd.macAddress), NodePayloadsMacKey);
      match driverErr
      case Some(e) =>
        err := Some(InsertFailure(e, NodePayloadExists(npd)));
      case None =>
        nodePayloads := nodePayloads + [npd];
        err := None;
    }

    /** postgres.go:224-259: give every node_payloads row LIKE the key the new payload_id. */
    method UpdateNodePayload(config: NodePayloadDb, fault: Option<Error>) returns (r: Result<NodePayloadDb, Error>)
      requires Valid()
      modifies this
      ensures Valid()
      ensures fault.Some? && IsContextError(fault.value) ==> r == Err(fault.value)
      ensures fault.Some? && !IsContextError(fault.value) && PgErrorCode(fault.value) == Some(UniqueViolation) ==>
        r == Err(Message(NodePayloadExists(config)))
      ensures fault.Some? && !IsContextError(fault.value) && PgErrorCode(fault.value) != Some(UniqueViolation) ==>
        r == Err(Message("cannot update payload for config: " + ShowNodePayloadDb(config)))
      ensures fault.Some? ==> r == Err(PayloadUpdateFailure(fault.value, config))
      ensures fault.None? && !old(AnyPayloadRowLike(nodePayloads, config.macAddress)) ==>
        r == Err(Message("mac_address not in database: " + ShowNodePayloadDb(config)))
      ensures fault.None? && old(AnyPayloadRowLike(nodePayloads, config.macAddress)) ==> r == Ok(config)
      ensures nodePayloads == if r.Ok? then ReassignPayload(old(nodePayloads), config.macAddress, config.payloadId)
                              else old(nodePayloads)
      ensures payloads == old(payloads) && subnetDefaultPayloads == old(subnetDefaultPayloads)
      ensures ImageTables() == old(ImageTables())
    {
      match fault {
        case Some(e) =>
          r := Err(PayloadUpdateFailure(e, config));
        case None =>
          if !AnyPayloadRowLike(nodePayloads, config.macAddress) {
            r := Err(Message("mac_address not in database: " + ShowNodePayloadDb(config)));
          } else {
            nodePayloads := ReassignPayload(nodePayloads, config.macAddress, config.payloadId);
            r := Ok(config);
          }
      }
    }

    /** postgres.go:339-365: give every node_images row LIKE the key the new (image_tag, image_type). */
    method UpdateNodeImage(config: IpxeNodeDbConfig, fault: Option<Error>) returns (r: Result<IpxeNodeDbConfig, Error>)
      requires Valid()
      modifies this
      ensures Valid()
      ensures fault.Some? && IsContextError(fault.value) ==> r == Err(fault.value)
      ensures fault.Some? && !IsContextError(fault.value) ==>
        r == Err(Message("cannot update image for config: " + ShowIpxeNodeDbConfig(config)))
      ensures fault.None? && !old(AnyImageRowLike(nodeImages, config.macAddress)) ==>
        r == Err(Message("mac_address not in database: " + ShowIpxeNodeDbConfig(config)))
      ensures fault.None? && old(AnyImageRowLike(nodeImages, config.macAddress)) ==> r == Ok(config)
      ensures nodeImages == if r.Ok? then ReassignImage(old(nodeImages), config.macAddress, config.imageTag, config.imageType)
                            else old(nodeImages)
      ensures images == old(images) && subnetDefaultImages == old(subnetDefaultImages)
      ensures PayloadTables() == old(PayloadTables())
    {
      match fault {
        case Some(e) =>
          if IsContextError(e) {
            r := Err(e);
          } else {
            r := Err(Message("cannot update image for config: " + ShowIpxeNodeDbConfig(config)));
          }
        case None =>
          if !AnyImageRowLike(nodeImages, config.macAddress) {
            r := Err(Message("mac_address not in database: " + ShowIpxeNodeDbConfig(config)));
          } else {
            nodeImages := ReassignImage(nodeImages, config.macAddress, config.imageTag, config.imageType);
            r := Ok(config);
          }
      }
    }

    /** postgres.go:479-509: insert a node_images row; a row with the same mac_address makes it fail. */
    method CreateNodeIpxeConfig(config: IpxeNodeDbConfig, fault: Option<Error>) returns (err: Option<Error>)
      requires Valid()
      modifies this
      ensures Valid()
      ensures err.None? <==> fault.None? && !old(ImageMacTaken(nodeImages, config.macAddress))
      ensures fault.None? && old(ImageMacTaken(nodeImages, config.macAddress)) ==> err == Some(Message(NodeImageExists(config)))
      ensures fault.Some? ==> err == Some(InsertFailure(fault.value, NodeImageExists(config)))
      ensures nodeImages == if err.None? then old(nodeImages) + [config] else old(nodeImages)
      ensures images == old(images) && subnetDefaultImages == old(subnetDefaultImages)
      ensures PayloadTables() == old(PayloadTables())
    {
      var driverErr := InsertDriverError(fault, ImageMacTaken(nodeImages, config.macAddress), NodeImagesMacKey);
      match driverErr
      case Some(e) =>
        err := Some(InsertFailure(e, NodeImageExists(config)));
      case None =>
        nodeImages := nodeImages + [config];
        err := None;
    }

    /** postgres.go:512-554: insert an images row; an existing (image_tag, image_type) makes it fail. */
    method CreateIpxeImage(config: IpxeDbConfig, fault: Option<Error>) returns (r: Result<IpxeConfig, Error>)
      requires Valid()
      modifies this
      ensures Valid()
      ensures r.Ok? <==> fault.None? && !old(ImageKeyTaken(images, config.imageTag, config.imageType))
      ensures r.Ok? ==> r.value == Unsigned(config)
      ensures fault.None? && old(ImageKeyTaken(images, config.imageTag, config.imageType)) ==>
        r == Err(Message("UniqueViolation - (image_tag, image_type) exists"))
      ensures fault.Some? && IsContextError(fault.value) ==> r == Err(fault.value)
      ensures fault.Some? && !IsContextError(fault.value) ==>
        r == Err(match CreateIpxeImagePgError(fault.value)
                 case Some(e) => e
                 case None => Message("cannot create image"))
      ensures r.Err? ==>
        r.error == ImageInsertFailure(InsertDriverError(fault, old(ImageKeyTaken(images, config.imageTag, config.imageType)), ImagesTagTypeKey).value)
      ensures images == if r.Ok? then old(images) + [config] else old(images)
      ensures nodeImages == old(nodeImages) && subnetDefaultImages == old(subnetDefaultImages)
      ensures PayloadTables() == old(PayloadTables())
    {
      var driverErr := InsertDriverError(fault, ImageKeyTaken(images, config.imageTag, config.imageType), ImagesTagTypeKey);
      match driverErr {
        case Some(e) =>
          r := Err(ImageInsertFailure(e));
        case None =>
          images := images + [config];
          r := Ok(Unsigned(config));
      }
    }
  }
}

=== FILE: records.dfy ===
/**
 * The value types declared by the payloads and ipxe packages and returned by
 * the Postgres layer. Timestamps (CreatedAt, ModifiedAt) are not carried.
 */
module Records {

  /** A device's payload as served by GET /api/v2/payload/<mac>. */
  datatype NodePayload = NodePayload(payloadId: string, payloadDirectory: string, macAddress: string)

  /** A catalog entry of the payloads table. */
  datatype Payload = Payload(payloadId: string, payloadDirectory: string)

  /** A row of the node_payloads table, and the body of a payload PUT. */
  datatype NodePayloadDb = NodePayloadDb(payloadId: string, macAddress: string)

  /** A hydrated boot configuration: image identity, signed URLs and hostname. */
  datatype IpxeConfig = IpxeConfig(
    imageName: string,
    imageBucket: string,
    imageTag: string,
    imageType: string,
    imageInitrdUrlHttp: string,
    imageInitrdUrlHttps: string,
    imageKernelUrlHttp: string,
    imageKernelUrlHttps: string,
    imageRootFsUrlHttp: string,
    imageRootFsUrlHttps: string,
    imageCmdline: string,
    hostname: string)

  /** A row of the node_images table. */
  datatype IpxeNodeDbConfig = IpxeNodeDbConfig(imageTag: string, imageType: string, macAddress: string)

  /** A catalog entry of the images table, and the body of an image PUT. */
  datatype IpxeDbConfig = IpxeDbConfig(
    imageName: string,
    imageBucket: string,
    imageTag: string,
    imageType: string,
    imageCmdline: string)

  /** The natural key of an image, and the body of an image DELETE. */
  datatype IpxeImageTagType = IpxeImageTagType(imageTag: string, imageType: string)

  /** An image catalog entry as an IpxeConfig whose URLs and hostname are still empty. */
  function Unsigned(idc: IpxeDbConfig): IpxeConfig
  {
    IpxeConfig(idc.imageName, idc.imageBucket, idc.imageTag, idc.imageType,
               "", "", "", "", "", "", idc.imageCmdline, "")
  }
}

=== FILE: text.dfy ===
/**
 * String operations the core borrows from Go's `strings` package and from
 * PostgreSQL's LIKE operator, each with the property the core relies on.
 */
module Text {

  // ---------------------------------------------------------------------
  // strings.ToLower, on ASCII letters only
  // ---------------------------------------------------------------------

  function LowerChar(c: char): char {
    if 'A' <= c <= 'Z' then (c as int + 32) as char else c
  }

  function ToLower(s: string): (r: string)
    ensures |r| == |s|
    ensures forall i :: 0 <= i < |s| ==> r[i] == LowerChar(s[i])
  {
    seq(|s|, i requires 0 <= i < |s| => LowerChar(s[i]))
  }

  // ---------------------------------------------------------------------
  // strings.Replace(s, c, "", -1) for a one-character c
  // ---------------------------------------------------------------------

  /** `s` with every occurrence of `c` deleted and the other characters kept in order. */
  function RemoveAll(s: string, c: char): (r: string)
    ensures c !in r
    ensures |r| <= |s|
    ensures forall x :: x in r ==> x in s
    ensures c !in s ==> r == s
  {
    if s == [] then []
    else (if s[0] == c then [] else [s[0]]) + RemoveAll(s[1..], c)
  }

  /** Deleting from a concatenation deletes from each part. */
  lemma {:induction false} RemoveAllConcat(a: string, b: string, c: char)
    ensures RemoveAll(a + b, c) == RemoveAll(a, c) + RemoveAll(b, c)
    decreases |a|
  {
    if a == [] {
      assert a + b == b;
    } else {
      assert (a + b)[1..] == a[1..] + b;
      RemoveAllConcat(a[1..], b, c);
    }
  }

  /** On one character: gone if it is `c`, kept otherwise. */
  lemma RemoveAllOne(x: char, c: char)
    ensures RemoveAll([x], c) == if x == c then [] else [x]
  {
    assert [x][1..] == [];
  }

  /** Lower-casing a concatenation lower-cases each part. */
  lemma ToLowerConcat(a: string, b: string)
    ensures ToLower(a + b) == ToLower(a) + ToLower(b)
  {
  }

  // ---------------------------------------------------------------------
  // strings.Replace(s, pat, rep, 1)
  // ---------------------------------------------------------------------

  ghost predicate OccursAt(s: string, pat: string, i: int) {
    0 <= i && i + |pat| <= |s| && s[i..i + |pat|] == pat
  }

  /** `s` with its first occurrence of `pat` (if any) replaced by `rep`. */
  function ReplaceFirst(s: string, pat: string, rep: string): (r: string)
    requires pat != []
    ensures |r| == |s| || |r| == |s| - |pat| + |rep|
    decreases |s|
  {
    if |s| < |pat| then s
    else if s[..|pat|] == pat then rep + s[|pat|..]
    else [s[0]] + ReplaceFirst(s[1..], pat, rep)
  }

  /** Occurrences of `pat` in `s[1..]` are those of `s` shifted left by one. */
  lemma OccursShift(s: string, pat: string, i: nat)
    requires s != []
    ensures OccursAt(s[1..], pat, i) <==> OccursAt(s, pat, i + 1)
  {
  }

  /** Without an occurrence of `pat`, ReplaceFirst leaves `s` as it is. */
  lemma {:induction false} ReplaceFirstAbsent(s: string, pat: string, rep: string)
    requires pat != []
    requires forall i :: !OccursAt(s, pat, i)
    ensures ReplaceFirst(s, pat, rep) == s
    decreases |s|
  {
    if |s| >= |pat| {
      assert !OccursAt(s, pat, 0);
      forall i ensures !OccursAt(s[1..], pat, i) {
        if i >= 0 { OccursShift(s, pat, i); }
      }
      ReplaceFirstAbsent(s[1..], pat, rep);
    }
  }

  /** ReplaceFirst replaces the leftmost occurrence of `pat`, at index `i`, and nothing else. */
  lemma {:induction false} ReplaceFirstLeftmost(s: string, pat: string, rep: string, i: nat)
    requires pat != []
    requires OccursAt(s, pat, i)
    requires forall j :: 0 <= j < i ==> !OccursAt(s, pat, j)
    ensures ReplaceFirst(s, pat, rep) == s[..i] + rep + s[i + |pat|..]
    decreases |s|
  {
    if i == 0 {
      assert s[..|pat|] == pat;
      assert s[..i] == [];
    } else {
      assert !OccursAt(s, pat, 0);
      assert s[..|pat|] != pat;
      var t := s[1..];
      assert ReplaceFirst(s, pat, rep) == [s[0]] + ReplaceFirst(t, pat, rep);
      OccursShift(s, pat, i - 1);
      forall j | 0 <= j < i - 1 ensures !OccursAt(t, pat, j) {
        OccursShift(s, pat, j);
      }
      ReplaceFirstLeftmost(t, pat, rep, i - 1);
      assert s[..i] == [s[0]] + t[..i - 1];
      assert s[i + |pat|..] == t[i - 1 + |pat|..];
    }
  }

  // ---------------------------------------------------------------------
  // strings.Split(s, c)[0]
  // ---------------------------------------------------------------------

  /** The part of `s` before its first `c`, or all of `s` when it has none. */
  function BeforeFirst(s: string, c: char): (r: string)
    ensures r <= s
    ensures c !in r
    ensures r == s || s[|r|] == c
  {
    if s == [] || s[0] == c then []
    else [s[0]] + BeforeFirst(s[1..], c)
  }

  // ---------------------------------------------------------------------
  // fmt's %v of a []string: "[a b c]"
  // ---------------------------------------------------------------------

  function JoinSpaced(xs: seq<string>): string {
    if xs == [] then ""
    else if |xs| == 1 then xs[0]
    else xs[0] + " " + JoinSpaced(xs[1..])
  }

  function FormatList(xs: seq<string>): string {
    "[" + JoinSpaced(xs) + "]"
  }

  // ---------------------------------------------------------------------
  // PostgreSQL `value LIKE pattern`, with the default escape character `\`
  // ---------------------------------------------------------------------

  /** `%` matches any run of characters, `_` any one character, `\x` the character x. */
  function Like(s: string, p: string): (r: bool)
    ensures p == "%" ==> r
    ensures p == "_" ==> (r <==> |s| == 1)
    decreases |s| + |p|
  {
    if p == [] then s == []
    else if p[0] == '%' then Like(s, p[1..]) || (s != [] && Like(s[1..], p))
    else if p[0] == '_' then s != [] && Like(s[1..], p[1..])
    else if p[0] == '\\' && |p| >= 2 then s != [] && s[0] == p[1] && Like(s[1..], p[2..])
    else s != [] && s[0] == p[0] && Like(s[1..], p[1..])
  }

  predicate IsWildcard(c: char) {
    c == '%' || c == '_' || c == '\\'
  }

  /** A pattern in which LIKE sees only ordinary characters. */
  predicate Literal(p: string) {
    forall i :: 0 <= i < |p| ==> !IsWildcard(p[i])
  }

  /** A literal pattern matches exactly itself. */
  lemma {:induction false} LikeLiteral(s: string, p: string)
    requires Literal(p)
    ensures Like(s, p) <==> s == p
    decreases |p|
  {
    if p != [] {
      assert !IsWildcard(p[0]);
      if s != [] {
        assert Literal(p[1..]) by {
          forall i | 0 <= i < |p[1..]| ensures !IsWildcard(p[1..][i]) {
            assert p[1..][i] == p[i + 1];
          }
        }
        LikeLiteral(s[1..], p[1..]);
        if s[0] == p[0] && s[1..] == p[1..] {
          assert s == [s[0]] + s[1..] && p == [p[0]] + p[1..];
        }
      }
    }
  }

  /** `%` followed by a literal matches exactly the strings that end with that literal. */
  lemma {:induction false} LikeSuffix(s: string, q: string)
    requires Literal(q)
    ensures Like(s, "%" + q) <==> (|q| <= |s| && s[|s| - |q|..] == q)
    decreases |s|
  {
    var p := "%" + q;
    assert p[0] == '%' && p[1..] == q;
    LikeLiteral(s, q);
    if s != [] {
      LikeSuffix(s[1..], q);
      if |q| <= |s| - 1 {
        assert s[1..][|s[1..]| - |q|..] == s[|s| - |q|..];
      }
    }
  }
}

=== FILE: wrappers.dfy ===
/** Value wrappers shared by every module of the model. */
module Wrappers {

  /** A value that may be absent: the model's rendering of Go's nil pointers. */
  datatype Option<+T> = None | Some(value: T)

  /** A value or an error: the model's rendering of Go's `(value, error)` pairs. */
  datatype Result<+T, +E> = Ok(value: T) | Err(error: E)
}
